=== FILE: README.md ===
# naisdevice agents: a Dafny model

This project models the core of the naisdevice agents. It covers two processes:

- **Device agent.** Its connectivity state machine moves a laptop through
  bootstrap, authentication, config sync and health check to `Connected`. It
  also branches on session and posture errors. It converts control-plane
  gateways to the status type, probes gateways, and checks for a new release.
  The human-readable connection state is part of the model too.
- **Gateway agent.** Its WireGuard config templates are modelled, along with
  the iptables rules it keeps in place and its ten-second poll cycle. So is
  the device-side WireGuard template.

Everything is a pure function over immutable datatypes. Several things become
inputs:

- what the network, the kernel, the helper process and the control plane answer
  (`World`, `Faults`, `Cycle`, `Boot`);
- timers and signals, which become `Event`s;
- the encoding of the private key, which is a function parameter.

Modules:

- `Outcomes`: the `Option` type used for nil pointers and error returns.
- `WgConf`: the WireGuard configuration-file format as lines (`[Section] # comment`,
  `Key = Value`, blank), its rendering and a parser. `ParseRender` proves that
  parsing a rendering of well-formed lines gives the lines back. All template
  properties are read off the parsed form.
- `GatewayAgent`: `GenerateBaseConfig` and `GenerateWireGuardPeers` of the gateway agent.
- `Iptables`: `setupIptables` and `forwardRoutes` over an abstract rule store. In
  it `AppendUnique` inserts a rule only if it is absent.
- `GatewayPoll`: the gateway agent's start-up decisions and its poll-cycle body.
- `DeviceWireGuard`: the device agent's WireGuard base-config template.
- `Pb`: `AgentState`, the status types and `ConnectionStateString`, with the `15:04:05` time layout.
- `Gateways`: `ApiGatewaysToProtobufGateways` and the health-check pass.
- `EventLoop`: one iteration of `EventLoop` as `StepLoop`, with one function per state handler.
- `EventLoopRuns`: properties of runs of the loop over sequences of events. It
  also covers the chains the loop drives when each requested state is fed back
  to it.

## Model

| member | source | states |
|---|---|---|
| GatewayAgent.GenerateBaseConfig | cmd/gateway-agent/main.go:193-210 | The gateway base template is exactly the rendering of three blocks, in order: an interface block, an API-server peer block and a prometheus peer block. What the text means once read back is stated by `BaseConfigParses`. |
| GatewayAgent.BaseConfigParses | cmd/gateway-agent/main.go:193-210 | The base config reads back as `[Interface]` with the private key and `ListenPort = 51820`. Next comes `[Peer] # apiserver` with its public key, `AllowedIPs = <tunnel IP>/32` and its `Endpoint`. Last comes `[Peer] # prometheus` with its public key, `AllowedIPs = <tunnel IP>/32` and no `Endpoint`. |
| GatewayAgent.BaseConfigSections | cmd/gateway-agent/main.go:198-203 | The base config declares exactly two `[Peer]` sections. |
| GatewayAgent.PeersAppend | cmd/gateway-agent/main.go:217-223 | The peers of no devices render as the empty string. Rendering distributes over concatenation of device lists. |
| GatewayAgent.GenerateWireGuardPeers | cmd/gateway-agent/main.go:212-224 | The peer text is the rendering of one three-line stanza per device, in input order. What it reads back as is stated by `DevicePeersParse`. |
| GatewayAgent.ActuatedConfig | cmd/gateway-agent/main.go:117-118 | The text actuated on every cycle is the rendering of the base blocks followed by the device stanzas. What it reads back as is stated by `ActuatedConfigParses`. |
| GatewayAgent.DevicePeersParse | cmd/gateway-agent/main.go:212-224 | The peer text reads back as one `[Peer]` section per device, in order, with `PublicKey` = the device's key and `AllowedIPs` = the device's IP. The number of `[Peer]` headers equals the number of devices. |
| GatewayAgent.ActuatedConfigParses | cmd/gateway-agent/main.go:117-118 | The text actuated each cycle (base + peers) reads back as the base blocks followed by the device stanzas. It has 2 + number-of-devices peers. |
| Iptables.AppendUnique | cmd/gateway-agent/main.go:300-319 | Insert-if-absent. The call succeeds exactly when the rule's chain exists and the kernel accepts the rule. On success the rule is present. The rule list only grows, by at most the one rule and at its end. Policies and chains are untouched, and a duplicate-free list stays duplicate-free. |
| Iptables.ForwardRoutes | cmd/gateway-agent/main.go:296-323 | Forwarding routes keeps policies and chains, keeps every existing rule in place (the old list is a prefix), and never introduces duplicates. |
| Iptables.ForwardRoutesSucceeds | cmd/gateway-agent/main.go:299-322 | `forwardRoutes` returns no error iff the SNAT rule and the LOG_ACCEPT forwarding rule of every route can be appended. |
| Iptables.ForwardRoutesForwards | cmd/gateway-agent/main.go:299-320 | After a successful run, every route has its `nat/POSTROUTING` SNAT rule and its `filter/FORWARD` rule jumping to `LOG_ACCEPT`. |
| Iptables.ForwardRoutesAddsOnlyRouteRules | cmd/gateway-agent/main.go:300-316 | Every rule a run adds is the SNAT or forwarding rule of one of the routes. |
| Iptables.ForwardRoutesError | cmd/gateway-agent/main.go:300-319 | An error names a route of the list and the append that failed on it. When the forwarding rule failed, that route's SNAT rule is already in place. |
| Iptables.ForwardRoutesAppend | cmd/gateway-agent/main.go:299-320 | First error aborts. Forwarding `a + b` equals forwarding `a` if that failed; otherwise it is forwarding `b` on the result. Rules from earlier routes stay, and later routes are not processed. |
| Iptables.ForwardRoutesIdempotent | cmd/gateway-agent/main.go:296-323 | Running `forwardRoutes` again with the same routes on its own result adds no rule and returns the same outcome. |
| Iptables.NewChain | cmd/gateway-agent/main.go:280-283 | Creating a chain succeeds iff it does not exist and the kernel allows it. Only the chain set changes. |
| Iptables.SetupIptables | cmd/gateway-agent/main.go:261-294 | Setup succeeds iff: the policy change succeeds; both return-traffic rules can be appended; `LOG_ACCEPT` exists or can be created (a failed creation is tolerated); and its LOG and ACCEPT rules are accepted. A policy failure is reported as such. On success, FORWARD's policy is DROP, `LOG_ACCEPT` exists and all four rules are present. |
| Iptables.SetupRules | cmd/gateway-agent/main.go:267-293 | The rule steps after the policy change leave the policies alone. |
| Iptables.SetupRulesIdempotent | cmd/gateway-agent/main.go:267-293 | Running the rule steps again on their own result changes nothing and ends the same way. |
| Iptables.SetupIptablesIdempotent | cmd/gateway-agent/main.go:261-294 | Running `setupIptables` again on what the last run left changes nothing and ends the same way. |
| GatewayPoll.Actuate | cmd/gateway-agent/main.go:245-259 | A successful actuation makes the text the interface's configuration. A failed one leaves the previous configuration in place. |
| GatewayPoll.PollCycle | cmd/gateway-agent/main.go:94-126 | A failed fetch only increments the failure count. In development mode a fetched config changes nothing. Otherwise, after a successful actuation the interface holds base + peers of the fetched devices, and a failed actuation keeps the previous interface. Whatever the actuation outcome, the firewall becomes what `forwardRoutes` makes of it for the fetched routes. Rules only accumulate. |
| GatewayPoll.PollCycleSteady | cmd/gateway-agent/main.go:113-125 | Repeating a cycle with the same fetched config and outcomes changes nothing more. |
| GatewayPoll.PollCycleForwardsRoutes | cmd/gateway-agent/main.go:117-125 | Outside development mode, a cycle that fetched a config forwards its routes even when `wg syncconf` failed: if every route rule can be appended, every route has both of its rules afterwards. |
| GatewayPoll.PollCycleInstalls | cmd/gateway-agent/main.go:117-125 | After a cycle that fetched, actuated and forwarded, the interface text reads back as base + one peer per device. Every route has both of its rules. |
| GatewayPoll.Startup | cmd/gateway-agent/main.go:70-92 | Development mode always starts and never touches the firewall. Otherwise start-up runs iff the interface comes up, iptables opens, `setupIptables` succeeds and the base config is actuated. A running gateway then has the base config installed, the DROP policy and the four setup rules. |
| GatewayPoll.StartupInstallsBase | cmd/gateway-agent/main.go:88-92 | The base config installed at start-up reads back as the interface and the two fixed peers. |
| DeviceWireGuard.GenerateBaseConfig | device-agent/wireguard/wireguard_unix.go:11-21 | The device template is exactly the rendering of an interface block followed by a single peer block. What it reads back as is stated by `BaseConfigParses`. |
| DeviceWireGuard.BaseConfigParses | device-agent/wireguard/wireguard_unix.go:11-21 | The device config reads back as `[Interface]` with `PrivateKey` = the encoded key, then exactly one `[Peer]` section. That section holds `PublicKey` = the bootstrap public key, `AllowedIPs` = the API server IP + `/32` and `Endpoint` = the bootstrap endpoint. There is no `ListenPort` key. |
| Pb.EnumNameRoundTrip | pkg/pb/connectionstate.go:25-26 | Every state has a distinct enum name that reads back to the state. |
| Pb.Clock | pkg/pb/connectionstate.go:3-4 | The `15:04:05` layout: eight characters, two decimal digits each for hours (below 24), minutes and seconds (below 60), separated by colons at positions 2 and 5. |
| Pb.ClockSecondsInjective | pkg/pb/connectionstate.go:3-4 | The `HH:MM:SS` reader accepts exactly one text per second of the day, so a text with the right second is the clock text. |
| Pb.ClockRoundTrip | pkg/pb/connectionstate.go:3-4 | The clock text of a Unix time reads back as its second of the UTC day. |
| Pb.ConnectionStateString | pkg/pb/connectionstate.go:7-28 | `Connected` reads `Connected since ` followed by a well-formed `HH:MM:SS` (digits, fields in range) of the connected-since time. An unset time counts as the epoch. Every other state reads its fixed text: `Bootstrapping device...`, `Device is unhealthy; no access to resources`, and so on. States without a case, `Disconnected` and `Quitting`, fall back to their enum name. |
| Pb.ConnectionStateRoundTrip | pkg/pb/connectionstate.go:8-27 | The mapping is total, and its text determines the state. |
| Pb.ConnectionStateInjective | pkg/pb/connectionstate.go:8-27 | Two statuses with the same text are in the same state. |
| Pb.ConnectedTextsAgree | pkg/pb/connectionstate.go:23-24 | Two connected statuses read the same iff they connected at the same second of the day. |
| Gateways.ApiGatewaysToProtobufGateways | pkg/device-agent/eventloop.go:234-251 | The conversion preserves length and order, and copies each field. Access groups are empty. |
| Gateways.ConversionRoundTrip | pkg/device-agent/eventloop.go:234-251 | Converting back gives the original control-plane list, so nothing is lost. |
| Gateways.ConversionAppend | pkg/device-agent/eventloop.go:237-248 | Converting a concatenation converts each part. |
| Gateways.HealthCheckPass | pkg/device-agent/eventloop.go:173-182 | The pass visits every gateway. Each gateway's health is set to whether its probe connected, and nothing else changes. |
| Gateways.HealthCheckMarksFailures | pkg/device-agent/eventloop.go:173-182 | After a pass, the unhealthy gateways are exactly those whose probe failed. |
| Gateways.HealthCheckLatestWins | pkg/device-agent/eventloop.go:173-182 | Health reflects only the latest probe. |
| Gateways.HealthCheckIdempotent | pkg/device-agent/eventloop.go:173-182 | A second pass with the same probe results changes nothing. |
| EventLoop.WithGateways | pkg/device-agent/eventloop.go:216-217 | The runtime gateways are replaced wholesale. The status list converts back to exactly them. The rest of the status, the session, the bootstrap, the helper stream and the version ticker are unchanged. |
| EventLoop.Init | pkg/device-agent/eventloop.go:53-58 | The loop starts from the zero status, with the version ticker due in 5 seconds. It first requests `Disconnected`. |
| EventLoop.VersionCheck | pkg/device-agent/eventloop.go:68-83 | The new-version flag is set iff the fetched tag differs from the running version. A new tag stops the ticker and notifies. An equal tag resets the ticker to hourly. An error clears the flag and leaves the ticker. A stopped ticker is a no-op. Nothing else changes. |
| EventLoop.TimerTick | pkg/device-agent/eventloop.go:85-93 | A sync-config or health-check tick requests its state iff the current state is `Connected`. |
| EventLoop.OnBootstrapping | pkg/device-agent/eventloop.go:99-130 | A cached bootstrap is kept and not re-fetched. The step requests `Authenticating` iff a bootstrap is available, the helper opens and the push succeeds. Any failure requests `Disconnecting` with a notice. The push carries the device IP and only the bootstrap gateway. |
| EventLoop.OnAuthenticating | pkg/device-agent/eventloop.go:132-150 | A present, unexpired session is reused. Otherwise the session is the authentication result. A failure requests `Disconnecting` and leaves the status as it was. Success stamps connected-since with now and requests `SyncConfig`. |
| EventLoop.OnSyncConfig | pkg/device-agent/eventloop.go:188-226 | Unauthorized drops the session and requests `Disconnecting`, with no notice and no push. Unhealthy requests `Unhealthy` with its notice and no push. Other errors request `HealthCheck`. Success replaces the gateways and pushes them; the step then requests `HealthCheck` iff the push succeeded, else `Disconnecting` with a helper-failure notice. A missing session, or a missing bootstrap or stream at the push, is a nil dereference. |
| EventLoop.OnHealthCheck | pkg/device-agent/eventloop.go:172-185 | Every gateway's health becomes whether its probe connected; other fields are unchanged. The status list is rebuilt, and `Connected` is always requested. The session, bootstrap, helper stream, version ticker and the rest of the status are unchanged. |
| EventLoop.OnDisconnecting | pkg/device-agent/eventloop.go:164-170 | With a helper stream, the step always requests `Disconnected` and notifies iff the close failed. Without a stream the close is a nil dereference. |
| EventLoop.OnQuitting | pkg/device-agent/eventloop.go:158-162 | The step clears the status gateways and returns. Without a stream it is a nil dereference. |
| EventLoop.Handle | pkg/device-agent/eventloop.go:98-229 | No handler changes the current state, the version ticker or the new-version flag. Entering `Disconnected` clears the status gateway list and does nothing else: no request, notice or push. Entering `Connected`, `Unhealthy` or `AuthenticateBackoff` changes nothing and requests nothing. |
| EventLoop.StepLoop | pkg/device-agent/eventloop.go:60-231 | Only a state-change event changes the current state, and it changes it to the requested one. A signal returns. Only a version tick touches the version ticker. A new-version notice comes only from a version tick on a running ticker, which it stops. |
| EventLoop.BootstrapCachedIgnoresFetch | pkg/device-agent/eventloop.go:100-111 | With a cached bootstrap, the outcome of the bootstrap call does not matter. |
| EventLoop.ValidSessionIgnoresAuth | pkg/device-agent/eventloop.go:133-135 | With a present, unexpired session, the outcome of the authentication call does not matter. |
| EventLoopRuns.InitEstablishesInvariants | pkg/device-agent/eventloop.go:53-58 | The loop as it starts meets both run invariants: the version flag agrees with the running ticker, and the empty status gateway list is a view of the runtime gateways. |
| EventLoopRuns.RunFromInit | pkg/device-agent/eventloop.go:53-231 | Every run from the start keeps both invariants and sends at most one new-version notification (under the stopped-ticker assumption below). |
| EventLoopRuns.FollowShape | pkg/device-agent/eventloop.go:95-98 | A chain driven through the state-change channel takes at most one request per iteration. Its first request is what entering the start state asked for. It rests in the start state or in a state some step requested. |
| EventLoopRuns.StepNewVersionNotices | pkg/device-agent/eventloop.go:78-80 | A step raises a new-version notice only when it stops a running ticker, and a stopped ticker stays stopped. |
| EventLoopRuns.AtMostOneNewVersionNotice | pkg/device-agent/eventloop.go:68-83 | Over any run the new-version notification fires at most once, and never once the ticker has stopped. |
| EventLoopRuns.RunKeepsVersionFlag | pkg/device-agent/eventloop.go:68-83 | Over any run, a stopped version ticker implies the new-version flag is set. |
| EventLoopRuns.RunKeepsGatewayView | pkg/device-agent/eventloop.go:155-217 | Over any run, the status gateway list is either empty or converts back to exactly the runtime gateways. |
| EventLoopRuns.TicksKeepState | pkg/device-agent/eventloop.go:85-93 | Outside `Connected`, ticks alone request nothing and leave the state, including `Unhealthy`, where it is. |
| EventLoopRuns.BootstrapToSync | pkg/device-agent/eventloop.go:99-150 | With a cooperating outside, `Bootstrapping` requests `Authenticating`, which requests `SyncConfig`. A session, a bootstrap and a helper stream are then in place, and connected-since is now. |
| EventLoopRuns.SyncToConnected | pkg/device-agent/eventloop.go:172-226 | With a cooperating outside, `SyncConfig` requests `HealthCheck`, which requests `Connected`, where the chain rests with the probed gateways listed. |
| EventLoopRuns.ConnectChain | pkg/device-agent/eventloop.go:99-226 | With a cooperating outside, connecting runs `Bootstrapping → Authenticating → SyncConfig → HealthCheck → Connected` with no notices. The fetched gateways are listed with their probe results. |
| EventLoopRuns.ReauthenticateAfterUnauthorized | pkg/device-agent/eventloop.go:133-199 | An unauthorized fetch leads to `Disconnecting` and then `Disconnected`, with the session dropped and the gateway list cleared. The next `Authenticating` therefore calls the authenticator. |
| EventLoopRuns.UnhealthyChain | pkg/device-agent/eventloop.go:201-228 | An unhealthy-device answer requests `Unhealthy` with one notice. The chain rests there with the session and gateways kept. |

## Left out

- HTTP calls are left out: the gateway-config fetch, the GitHub release request and its JSON decoding, and the device-config fetch. Only their classified outcomes are inputs. Every fetch or decode error of the version check is the same error.
- The `ip` commands and `wg syncconf` of the gateway agent are left out, along with the file write before `wg syncconf`. Their outcomes are booleans. The interface's MTU and `/21` address are not modelled.
- `updateConnectedDevicesMetrics` is left out: it is a regular-expression count over `wg show` output and feeds only a metric. So are prometheus metrics, logging, flag parsing and `InitLocalConfig`.
- The go-iptables library is an abstract rule store whose rule identity is literal equality of table, chain and argument list. The real `AppendUnique` asks iptables, which normalises arguments. Which appends fail is an input, `Faults.rejected`, beyond the modelled requirement that the chain exists.
- The gRPC helper stream is left out: `Configure`, `Send` and `CloseAndRecv` are booleans. The private key in the helper push is not modelled; the push records the device IP and the gateways.
- The helper stream is assumed nil until `Configure` first succeeds, and a failed `Configure` leaves it nil. `Disconnecting`, `Quitting` and the `SyncConfig` push therefore end in `Crash` when there is no stream, as a call on a nil stream does.
- `Quitting` does not check the close result in the source, and the model does not either.
- Desktop notifications are recorded only by kind (`Notice`), not by message text. Notification delivery errors are only logged.
- `UpdateAgentStatus`, the publication of the status to observers, is left out; the published status is the loop's `status`.
- Timers and signals are events. The sync-config (5 minutes) and health-check (20 seconds) ticker periods are not modelled.
- EventLoop.VersionCheck: assumes that no version tick is delivered after the ticker's `Stop()`, so a tick on a stopped ticker is a no-op. That is an assumption, not what every Go release does. Before Go 1.23, `Stop()` does not drain a tick already buffered in the ticker's channel. The loop can be slow on other branches, so a tick can be buffered before `Stop()` and received after it. That would run a second check and send a second new-version notification. The Go version the source is built with is not part of this model.
- EventLoopRuns.AtMostOneNewVersionNotice: holds only under the stopped-ticker assumption above. With a stale buffered tick the source can notify twice.
- The state-change channel is left out. `EventLoopRuns.Follow` feeds each request back as the next event, as the loop does when no other request intervenes.
- `SessionInfo.Expired` is not part of this model; whether the cached session has expired is a `World` input.
- `auth.EnsureAuth` and `runtimeconfig.EnsureBootstrapping` are not part of this model. They are assumed to return no value when they return an error, so that the session or bootstrap becomes absent.
- `BootstrapConfig.Gateway()` is not part of this model; the bootstrap answer carries that gateway as a field.
- Gateways.HealthCheckPass: the source sets `Healthy` on the range variable of `rc.GetGateways()`. The model assumes `GetGateways()` returns the runtime config's own gateway pointers, so the health flags persist into `rc.Gateways`, which the status list is then rebuilt from. `apiserver.Gateways` and `runtimeconfig` are not part of this model. If `GetGateways()` returned copies, the flags would be lost.
- `RuntimeConfig.UpdateGateways` is not part of this model; it is taken to replace the gateway list wholesale.
- The probe (a TCP dial to port 3000 with a two-second timeout) is reduced to the set of addresses that accept the connection. Two gateways at the same address therefore get the same result in one pass.
- `AuthenticateBackoff` has a display text but no handler in the loop; entering it does nothing.
- `Pb.ConnectionStateString`: only whole seconds of the connected-since timestamp are modelled, in UTC. The enum names are taken to be the Go constant names without the `AgentState_` prefix.
- `KeyToBase64` is a function parameter of `DeviceWireGuard.GenerateBaseConfig`, not an implementation of base64.
- `device-agent/config/config.go` and `pkg/systray/systray.go` are not part of this model: they hold path defaults and GUI code.

=== FILE: device_wireguard.dfy ===
/**
  The device agent's WireGuard base configuration
  (device-agent/wireguard/wireguard_unix.go): the device's own interface and
  one peer, the API server, as handed out by bootstrapping.
 */
module DeviceWireGuard {
  import opened Outcomes
  import opened WgConf

  /** The fields of the bootstrap answer the template reads. */
  datatype BootstrapConfig = BootstrapConfig(publicKey: string, apiServerIP: string, endpoint: string)

  /**
    The device template, line by line; `keyToBase64` encodes the private
    key. It is the rendering of the interface block and the API server peer.
   */
  function GenerateBaseConfig(bc: BootstrapConfig, privateKey: seq<bv8>, keyToBase64: seq<bv8> -> string): (text: string)
    ensures text == Render(BaseConfigLines(bc, keyToBase64(privateKey)))
  {
    var key := keyToBase64(privateKey);
    InterfaceIsRendered(key);
    ApiServerIsRendered(bc);
    TextsAppend(InterfaceLines(key), ApiServerPeerLines(bc));
    var t := [ "[Interface]",
               "PrivateKey = " + key,
               "",
               "[Peer]",
               "PublicKey = " + bc.publicKey,
               "AllowedIPs = " + bc.apiServerIP + "/32",
               "Endpoint = " + bc.endpoint ];
    assert Texts(BaseConfigLines(bc, key)) == t;
    Join(t)
  }

  /** The interface section: the encoded private key and nothing else. */
  function InterfaceLines(key: string): seq<Line> {
    [Section("Interface", ""), Pair("PrivateKey", key), Blank]
  }

  /** The API server peer. */
  function ApiServerPeerLines(bc: BootstrapConfig): seq<Line> {
    [ Section("Peer", ""),
      Pair("PublicKey", bc.publicKey),
      Pair("AllowedIPs", bc.apiServerIP + "/32"),
      Pair("Endpoint", bc.endpoint) ]
  }

  /** What the device configuration means, section by section. */
  function BaseConfigLines(bc: BootstrapConfig, key: string): seq<Line> {
    InterfaceLines(key) + ApiServerPeerLines(bc)
  }

  /** The inputs contain no line breaks. */
  predicate Printable(bc: BootstrapConfig, key: string) {
    '\n' !in key && '\n' !in bc.publicKey && '\n' !in bc.apiServerIP && '\n' !in bc.endpoint
  }

  // ---------------------------------------------------------------------
  // Lemmas

  lemma InterfaceIsRendered(key: string)
    ensures Texts(InterfaceLines(key)) == ["[Interface]", "PrivateKey = " + key, ""]
  {
    var t := Texts(InterfaceLines(key));
    assert t[0] == "[Interface]" by {
      assert LineText(Section("Interface", "")) == "[Interface]";
    }
    assert t[1] == "PrivateKey = " + key by {
      PairText("PrivateKey", key);
      assert "PrivateKey" + " = " == "PrivateKey = ";
    }
    assert t[2] == "";
  }

  lemma ApiServerIsRendered(bc: BootstrapConfig)
    ensures Texts(ApiServerPeerLines(bc))
         == [ "[Peer]", "PublicKey = " + bc.publicKey,
              "AllowedIPs = " + bc.apiServerIP + "/32", "Endpoint = " + bc.endpoint ]
  {
    var t := Texts(ApiServerPeerLines(bc));
    assert t[0] == "[Peer]" by {
      assert LineText(Section("Peer", "")) == "[Peer]";
    }
    assert t[1] == "PublicKey = " + bc.publicKey by {
      PairText("PublicKey", bc.publicKey);
      assert "PublicKey" + " = " == "PublicKey = ";
    }
    assert t[2] == "AllowedIPs = " + bc.apiServerIP + "/32" by {
      PairText("AllowedIPs", bc.apiServerIP + "/32");
      assert "AllowedIPs" + " = " == "AllowedIPs = ";
    }
    assert t[3] == "Endpoint = " + bc.endpoint by {
      PairText("Endpoint", bc.endpoint);
      assert "Endpoint" + " = " == "Endpoint = ";
    }
  }

  lemma BaseConfigLinesWellFormed(bc: BootstrapConfig, key: string)
    requires Printable(bc, key)
    ensures WellFormed(BaseConfigLines(bc, key))
  {
    KeyedPairWellFormed("PrivateKey", key);
    KeyedPairWellFormed("PublicKey", bc.publicKey);
    CidrHasNoNewline(bc.apiServerIP);
    KeyedPairWellFormed("AllowedIPs", bc.apiServerIP + "/32");
    KeyedPairWellFormed("Endpoint", bc.endpoint);
    var i, a := InterfaceLines(key), ApiServerPeerLines(bc);
    assert WellFormedLine(i[0]) && WellFormedLine(a[0]);
    assert WellFormed(i);
    assert WellFormed(a);
    WellFormedAppend(i, a);
  }

  /**
    Reading the device configuration back gives the interface section with
    the encoded private key, then exactly one `[Peer]` section holding the
    API server's public key, its address as a /32 and its endpoint; no line
    sets a listen port.
   */
  lemma BaseConfigParses(bc: BootstrapConfig, privateKey: seq<bv8>, keyToBase64: seq<bv8> -> string)
    requires Printable(bc, keyToBase64(privateKey))
    ensures var ls := BaseConfigLines(bc, keyToBase64(privateKey));
      && Parse(GenerateBaseConfig(bc, privateKey, keyToBase64)) == Some(ls)
      && ls[0] == Section("Interface", "")
      && ls[1] == Pair("PrivateKey", keyToBase64(privateKey))
      && ls[3..] == [ Section("Peer", ""), Pair("PublicKey", bc.publicKey),
                      Pair("AllowedIPs", bc.apiServerIP + "/32"), Pair("Endpoint", bc.endpoint) ]
      && CountSections(ls, "Peer") == 1
      && !HasKey(ls, "ListenPort")
  {
    var key := keyToBase64(privateKey);
    var ls := BaseConfigLines(bc, key);
    BaseConfigLinesWellFormed(bc, key);
    ParseRender(ls);
    CountSectionsAppend(InterfaceLines(key), ApiServerPeerLines(bc), "Peer");
    CountSectionsNone(InterfaceLines(key), "Peer");
    CountSectionsHeadOnly(ApiServerPeerLines(bc), "Peer");
    assert ls[3..] == ApiServerPeerLines(bc);
  }
}

=== FILE: eventloop.dfy ===
/**
  The device agent's connectivity state machine
  (pkg/device-agent/eventloop.go, `EventLoop`), one loop iteration at a
  time. The loop's inputs (signals, ticker ticks and state-change
  requests) are an `Event`; what the bootstrap, helper, authentication,
  control-plane, probe and release calls answer is a `World`. A step
  returns the new loop, the state it asks for next (the loop sends it to
  itself), the desktop notices it raised, the configuration it pushed to
  the helper, and whether the loop goes on.
 */
module EventLoop {
  import opened Outcomes
  import opened Pb
  import opened Gateways

  /** The session the control plane accepted; only its presence matters here. */
  datatype Session = Session(key: string)

  /** What the loop reads of the bootstrap answer: the device's address and the API server as a gateway. */
  datatype Bootstrap = Bootstrap(deviceIP: string, apiServer: Pb.Gateway)

  /**
    The version ticker: running with a period in seconds, or stopped for
    good. The model assumes a stopped ticker delivers no further tick,
    including one already buffered in its channel when it was stopped.
   */
  datatype Ticker = Ticking(period: nat) | Stopped

  /** The first version check comes five seconds after start. */
  const FirstVersionCheck: nat := 5

  /** Later checks come hourly. */
  const VersionCheckInterval: nat := 3600

  /**
    Everything the loop owns: the published status, the runtime
    configuration's cached bootstrap answer, session and gateways, whether a
    helper configuration stream has been set, and the version ticker.
   */
  datatype Loop = Loop(
    status: AgentStatus,
    bootstrap: Option<Bootstrap>,
    session: Option<Session>,
    gateways: seq<ApiGateway>,
    helperStream: bool,
    versionTicker: Ticker)

  /** What wakes the loop. */
  datatype Event =
    | Signal
    | VersionTick
    | SyncConfigTick
    | HealthCheckTick
    | StateChange(state: AgentState)

  /** How the control plane answered a device-config fetch. */
  datatype Fetch =
    | Fetched(gateways: seq<ApiGateway>)
    | Unauthorized
    | DeviceUnhealthy
    | FetchFailed

  /**
    What the outside answers during one step: the bootstrap result (None
    for an error), whether the helper stream opens, accepts a configuration
    and closes cleanly, whether the cached session has expired, the
    authentication result, the fetch, the addresses that accept a probe,
    the latest release tag (None for an error) and the current time.
   */
  datatype World = World(
    bootstrap: Option<Bootstrap>,
    helperOpens: bool,
    helperAccepts: bool,
    helperCloses: bool,
    sessionExpired: bool,
    auth: Option<Session>,
    fetch: Fetch,
    reachable: set<string>,
    latestTag: Option<string>,
    now: int)

  /** The desktop notifications the loop raises. */
  datatype Notice = NewVersionNotice | BootstrapFailed | HelperFailed | AuthFailed | DeviceUnhealthyNotice | CloseFailed

  /** A configuration sent to the helper. */
  datatype HelperPush = HelperPush(deviceIP: string, gateways: seq<Pb.Gateway>)

  /** Whether the loop goes on, returns, or dies on a nil dereference. */
  datatype Exit = Continue | Return | Crash

  /** The outcome of one iteration. */
  datatype Step = Step(loop: Loop, request: Option<AgentState>, notices: seq<Notice>, pushed: Option<HelperPush>, exit: Exit)

  /** An iteration that only asks for the next state. */
  function Request(loop: Loop, next: AgentState): Step {
    Step(loop, Some(next), [], None, Continue)
  }

  /** An iteration that asks for nothing. */
  function Quiet(loop: Loop): Step {
    Step(loop, None, [], None, Continue)
  }

  /** Replaces the runtime gateways and rebuilds the status list from them. */
  function WithGateways(loop: Loop, gws: seq<ApiGateway>): (r: Loop)
    ensures r.gateways == gws
    ensures ProtobufGatewaysToApiGateways(r.status.gateways) == gws
    ensures r.status == loop.status.(gateways := r.status.gateways)
    ensures r.session == loop.session && r.bootstrap == loop.bootstrap
    ensures r.helperStream == loop.helperStream && r.versionTicker == loop.versionTicker
  {
    ConversionRoundTrip(gws);
    loop.(gateways := gws, status := loop.status.(gateways := ApiGatewaysToProtobufGateways(gws)))
  }

  /**
    The loop as it starts: a zero status, the runtime configuration it was
    given, no helper stream and the version ticker due in five seconds. It
    first asks for the zero state, `Disconnected`.
   */
  function Init(bootstrap: Option<Bootstrap>, session: Option<Session>, gws: seq<ApiGateway>): (r: Step)
    ensures r.loop.status == InitialStatus && r.request == Some(Disconnected)
    ensures r.loop.versionTicker == Ticking(FirstVersionCheck) && !r.loop.helperStream
  {
    Request(Loop(InitialStatus, bootstrap, session, gws, false, Ticking(FirstVersionCheck)), Disconnected)
  }

  // ---------------------------------------------------------------------
  // Timers

  /**
    The version check. A release tag different from the running version is
    news: notify once and stop the ticker. The same tag resets the ticker to
    hourly. An error clears the flag and leaves the ticker alone. A tick
    after the ticker stopped is taken to be a no-op: the model assumes no
    buffered tick survives the stop.
   */
  function VersionCheck(loop: Loop, version: string, latestTag: Option<string>): (r: Step)
    ensures r.request == None && r.pushed == None && r.exit == Continue
    ensures r.loop == loop.(status := r.loop.status, versionTicker := r.loop.versionTicker)
    ensures r.loop.status == loop.status.(newVersionAvailable := r.loop.status.newVersionAvailable)
    ensures loop.versionTicker.Stopped? ==> r == Quiet(loop)
    ensures loop.versionTicker.Ticking? ==>
      && (r.loop.status.newVersionAvailable <==> latestTag.Some? && latestTag.value != version)
      && (latestTag.None? ==> r.loop.versionTicker == loop.versionTicker && r.notices == [])
      && (latestTag.Some? && latestTag.value != version ==>
            r.loop.versionTicker == Stopped && r.notices == [NewVersionNotice])
      && (latestTag.Some? && latestTag.value == version ==>
            r.loop.versionTicker == Ticking(VersionCheckInterval) && r.notices == [])
  {
    if loop.versionTicker.Stopped? then Quiet(loop)
    else
      match latestTag
      case None => Quiet(loop.(status := loop.status.(newVersionAvailable := false)))
      case Some(tag) =>
        var isNew := version != tag;
        var checked := loop.(status := loop.status.(newVersionAvailable := isNew));
        if isNew then Step(checked.(versionTicker := Stopped), None, [NewVersionNotice], None, Continue)
        else Quiet(checked.(versionTicker := Ticking(VersionCheckInterval)))
  }

  /** The sync-config and health-check tickers ask for their state only from `Connected`. */
  function TimerTick(loop: Loop, target: AgentState): (r: Step)
    ensures r.loop == loop && r.notices == [] && r.pushed == None && r.exit == Continue
    ensures r.request.Some? <==> loop.status.connectionState == Connected
    ensures r.request.Some? ==> r.request.value == target
  {
    if loop.status.connectionState == Connected then Request(loop, target) else Quiet(loop)
  }

  // ---------------------------------------------------------------------
  // State handlers; the new state is already in the status.

  /**
    `Bootstrapping`: fetch the bootstrap answer unless one is cached, open
    the helper stream, push the API server as the only gateway, and only
    then ask for `Authenticating`. Every failure asks for `Disconnecting`.
   */
  function OnBootstrapping(loop: Loop, w: World): (r: Step)
    ensures r.exit == Continue && r.loop.status == loop.status
    ensures r.loop.session == loop.session && r.loop.gateways == loop.gateways
    ensures loop.bootstrap.Some? ==> r.loop.bootstrap == loop.bootstrap
    ensures loop.bootstrap.None? ==> r.loop.bootstrap == w.bootstrap
    ensures r.request == Some(Authenticating) <==>
      (loop.bootstrap.Some? || w.bootstrap.Some?) && w.helperOpens && w.helperAccepts
    ensures r.request != Some(Authenticating) ==> r.request == Some(Disconnecting) && r.notices != []
    ensures r.pushed.Some? <==> r.loop.bootstrap.Some? && w.helperOpens
    ensures r.pushed.Some? ==>
      r.pushed.value == HelperPush(r.loop.bootstrap.value.deviceIP, [r.loop.bootstrap.value.apiServer])
  {
    var b := if loop.bootstrap.Some? then loop.bootstrap else w.bootstrap;
    if b.None? then Step(loop.(bootstrap := None), Some(Disconnecting), [BootstrapFailed], None, Continue)
    else
      var bootstrapped := loop.(bootstrap := b);
      if !w.helperOpens then
        Step(bootstrapped.(helperStream := false), Some(Disconnecting), [HelperFailed], None, Continue)
      else
        var withStream := bootstrapped.(helperStream := true);
        var push := HelperPush(b.value.deviceIP, [b.value.apiServer]);
        if !w.helperAccepts then Step(withStream, Some(Disconnecting), [HelperFailed], Some(push), Continue)
        else Step(withStream, Some(Authenticating), [], Some(push), Continue)
  }

  /**
    `Authenticating`: keep a present, unexpired session; otherwise
    authenticate, and on failure ask for `Disconnecting`. Once there is a
    session, record the time as connected-since and ask for `SyncConfig`.
   */
  function OnAuthenticating(loop: Loop, w: World): (r: Step)
    ensures r.exit == Continue && r.pushed == None
    ensures r.loop.bootstrap == loop.bootstrap && r.loop.gateways == loop.gateways
    ensures r.loop.helperStream == loop.helperStream && r.loop.versionTicker == loop.versionTicker
    ensures loop.session.Some? && !w.sessionExpired ==> r.loop.session == loop.session
    ensures loop.session.None? || w.sessionExpired ==> r.loop.session == w.auth
    ensures r.request == Some(SyncConfig) <==> r.loop.session.Some?
    ensures r.request == Some(SyncConfig) ==>
      r.loop.status == loop.status.(connectedSince := Some(w.now)) && r.notices == []
    ensures r.request != Some(SyncConfig) ==>
      r.request == Some(Disconnecting) && r.loop.status == loop.status && r.notices == [AuthFailed]
  {
    var session := if loop.session.Some? && !w.sessionExpired then loop.session else w.auth;
    if session.None? then Step(loop.(session := None), Some(Disconnecting), [AuthFailed], None, Continue)
    else Request(loop.(session := session, status := loop.status.(connectedSince := Some(w.now))), SyncConfig)
  }

  /**
    `SyncConfig`: fetch the gateways with the session's key. Unauthorized
    drops the session and asks for `Disconnecting`; an unhealthy device asks
    for `Unhealthy`; any other error asks for `HealthCheck`. On success the
    gateways are replaced wholesale, pushed to the helper, and the loop asks
    for `HealthCheck`, or for `Disconnecting` when the push failed. A
    missing session, bootstrap answer or helper stream is a nil dereference.
   */
  function OnSyncConfig(loop: Loop, w: World): (r: Step)
    ensures r.exit == Crash <==>
      loop.session.None? || (w.fetch.Fetched? && (loop.bootstrap.None? || !loop.helperStream))
    ensures r.exit != Return
    ensures r.exit == Continue && w.fetch.Unauthorized? ==>
      && r.loop == loop.(session := None) && r.request == Some(Disconnecting)
      && r.notices == [] && r.pushed == None
    ensures r.exit == Continue && w.fetch.DeviceUnhealthy? ==>
      && r.loop == loop && r.request == Some(Unhealthy) && r.notices == [DeviceUnhealthyNotice]
      && r.pushed == None
    ensures r.exit == Continue && w.fetch.FetchFailed? ==> r == Request(loop, HealthCheck)
    ensures r.exit == Continue && w.fetch.Fetched? ==>
      && r.loop == WithGateways(loop, w.fetch.gateways)
      && r.pushed == Some(HelperPush(loop.bootstrap.value.deviceIP, r.loop.status.gateways))
      && (r.request == Some(HealthCheck) <==> w.helperAccepts)
      && (!w.helperAccepts ==> r.request == Some(Disconnecting))
      && r.notices == (if w.helperAccepts then [] else [HelperFailed])
  {
    if loop.session.None? then Step(loop, None, [], None, Crash)
    else
      match w.fetch
      case Unauthorized => Request(loop.(session := None), Disconnecting)
      case DeviceUnhealthy => Step(loop, Some(Unhealthy), [DeviceUnhealthyNotice], None, Continue)
      case FetchFailed => Request(loop, HealthCheck)
      case Fetched(gws) =>
        var synced := WithGateways(loop, gws);
        if synced.bootstrap.None? || !synced.helperStream then Step(synced, None, [], None, Crash)
        else
          var push := HelperPush(synced.bootstrap.value.deviceIP, synced.status.gateways);
          if w.helperAccepts then Step(synced, Some(HealthCheck), [], Some(push), Continue)
          else Step(synced, Some(Disconnecting), [HelperFailed], Some(push), Continue)
  }

  /**
    `HealthCheck`: probe every gateway, set its health from the probe, rebuild
    the status list and ask for `Connected`.
   */
  function OnHealthCheck(loop: Loop, w: World): (r: Step)
    ensures r.request == Some(Connected) && r.exit == Continue && r.notices == [] && r.pushed == None
    ensures |r.loop.gateways| == |loop.gateways|
    ensures forall i :: 0 <= i < |loop.gateways| ==>
      && r.loop.gateways[i].healthy == (loop.gateways[i].ip in w.reachable)
      && r.loop.gateways[i].(healthy := loop.gateways[i].healthy) == loop.gateways[i]
    ensures ProtobufGatewaysToApiGateways(r.loop.status.gateways) == r.loop.gateways
    ensures r.loop.session == loop.session && r.loop.bootstrap == loop.bootstrap
    ensures r.loop.helperStream == loop.helperStream && r.loop.versionTicker == loop.versionTicker
    ensures r.loop.status == loop.status.(gateways := r.loop.status.gateways)
  {
    Request(WithGateways(loop, HealthCheckPass(loop.gateways, w.reachable)), Connected)
  }

  /**
    `Disconnecting`: close the helper stream, notify if that failed, and ask
    for `Disconnected` either way. Without a stream the close is a nil
    dereference.
   */
  function OnDisconnecting(loop: Loop, w: World): (r: Step)
    ensures r.exit == Crash <==> !loop.helperStream
    ensures r.exit != Crash ==> r.request == Some(Disconnected) && r.loop == loop && r.pushed == None
    ensures r.exit != Crash ==> (r.notices == [] <==> w.helperCloses)
  {
    if !loop.helperStream then Step(loop, None, [], None, Crash)
    else Step(loop, Some(Disconnected), if w.helperCloses then [] else [CloseFailed], None, Continue)
  }

  /** `Quitting`: close the helper stream, clear the gateway list and return. */
  function OnQuitting(loop: Loop): (r: Step)
    ensures r.exit == (if loop.helperStream then Return else Crash)
    ensures r.exit == Return ==> r.loop.status.gateways == [] && r.request == None
  {
    if !loop.helperStream then Step(loop, None, [], None, Crash)
    else Quiet(loop.(status := loop.status.(gateways := []))).(exit := Return)
  }

  /** The handler for the state just entered. */
  function Handle(loop: Loop, w: World): (r: Step)
    ensures r.loop.status.connectionState == loop.status.connectionState
    ensures r.loop.versionTicker == loop.versionTicker
    ensures r.loop.status.newVersionAvailable == loop.status.newVersionAvailable
    ensures loop.status.connectionState == Disconnected ==>
      && r.loop == loop.(status := loop.status.(gateways := []))
      && r.request == None && r.notices == [] && r.pushed == None && r.exit == Continue
    ensures loop.status.connectionState in {Connected, Unhealthy, AuthenticateBackoff} ==>
      && r.loop == loop
      && r.request == None && r.notices == [] && r.pushed == None && r.exit == Continue
  {
    match loop.status.connectionState
    case Bootstrapping => OnBootstrapping(loop, w)
    case Authenticating => OnAuthenticating(loop, w)
    case Connected => Quiet(loop)
    case Disconnected => Quiet(loop.(status := loop.status.(gateways := [])))
    case Quitting => OnQuitting(loop)
    case Disconnecting => OnDisconnecting(loop, w)
    case HealthCheck => OnHealthCheck(loop, w)
    case SyncConfig => OnSyncConfig(loop, w)
    case Unhealthy => Quiet(loop)
    case AuthenticateBackoff => Quiet(loop)
  }

  /**
    One loop iteration. A signal returns; tickers run their policy; a state
    change makes the requested state current and runs its handler.
   */
  function StepLoop(loop: Loop, version: string, e: Event, w: World): (r: Step)
    ensures r.loop.status.connectionState
         == (if e.StateChange? then e.state else loop.status.connectionState)
    ensures e.Signal? ==> r.exit == Return && r.loop == loop
    ensures !e.VersionTick? ==> r.loop.versionTicker == loop.versionTicker
    ensures NewVersionNotice in r.notices ==>
      e.VersionTick? && loop.versionTicker.Ticking? && r.loop.versionTicker == Stopped
  {
    match e
    case Signal => Quiet(loop).(exit := Return)
    case VersionTick => VersionCheck(loop, version, w.latestTag)
    case SyncConfigTick => TimerTick(loop, SyncConfig)
    case HealthCheckTick => TimerTick(loop, HealthCheck)
    case StateChange(s) => Handle(loop.(status := loop.status.(connectionState := s)), w)
  }

  // ---------------------------------------------------------------------
  // What a handler does not look at

  /** A cached bootstrap answer is not fetched again: the bootstrap call's outcome is irrelevant. */
  lemma BootstrapCachedIgnoresFetch(loop: Loop, w1: World, w2: World)
    requires loop.bootstrap.Some?
    requires w1.helperOpens == w2.helperOpens && w1.helperAccepts == w2.helperAccepts
    ensures OnBootstrapping(loop, w1) == OnBootstrapping(loop, w2)
  {
  }

  /** A present, unexpired session is reused: the authentication call's outcome is irrelevant. */
  lemma ValidSessionIgnoresAuth(loop: Loop, w1: World, w2: World)
    requires loop.session.Some? && !w1.sessionExpired && !w2.sessionExpired && w1.now == w2.now
    ensures OnAuthenticating(loop, w1) == OnAuthenticating(loop, w2)
  {
  }
}


=== FILE: eventloop_runs.dfy ===
/**
  Runs of the device agent's event loop: what holds over any sequence of
  iterations, and the request chains the loop drives through when it feeds
  each requested state back to itself.
 */
module EventLoopRuns {
  import opened Outcomes
  import opened Pb
  import opened Gateways
  import opened EventLoop

  /** One loop wake-up and what the outside answered during it. */
  datatype Input = Input(event: Event, world: World)

  /** Where a run ends: the loop, the states it requested and the notices it raised, in order, and how it stopped. */
  datatype Trace = Trace(loop: Loop, requests: seq<AgentState>, notices: seq<Notice>, exit: Exit)

  /** The request of one step as a list. */
  function Requested(s: Step): seq<AgentState> {
    if s.request.Some? then [s.request.value] else []
  }

  /** Runs the loop over the inputs until they run out or an iteration returns or crashes. */
  function RunLoop(loop: Loop, version: string, inputs: seq<Input>): (t: Trace)
    ensures t.exit == Continue ==> |inputs| == 0 || StepLoop(loop, version, inputs[0].event, inputs[0].world).exit == Continue
    decreases |inputs|
  {
    if |inputs| == 0 then Trace(loop, [], [], Continue)
    else
      var s := StepLoop(loop, version, inputs[0].event, inputs[0].world);
      if s.exit != Continue then Trace(s.loop, Requested(s), s.notices, s.exit)
      else
        var rest := RunLoop(s.loop, version, inputs[1..]);
        Trace(rest.loop, Requested(s) + rest.requests, s.notices + rest.notices, rest.exit)
  }

  /** How many new-version notices a list holds. */
  function NewVersionNotices(ns: seq<Notice>): nat {
    if |ns| == 0 then 0 else (if ns[0] == NewVersionNotice then 1 else 0) + NewVersionNotices(ns[1..])
  }

  lemma {:induction false} NewVersionNoticesAppend(a: seq<Notice>, b: seq<Notice>)
    ensures NewVersionNotices(a + b) == NewVersionNotices(a) + NewVersionNotices(b)
  {
    if |a| == 0 {
      assert a + b == b;
    } else {
      assert (a + b)[0] == a[0];
      assert (a + b)[1..] == a[1..] + b;
      NewVersionNoticesAppend(a[1..], b);
    }
  }

  /** A step raises at most one notice, and a new-version notice only as it stops the ticker. */
  lemma StepNewVersionNotices(loop: Loop, version: string, e: Event, w: World)
    ensures var s := StepLoop(loop, version, e, w);
      && NewVersionNotices(s.notices) <= (if loop.versionTicker.Ticking? && s.loop.versionTicker.Stopped? then 1 else 0)
      && (loop.versionTicker.Stopped? ==> s.loop.versionTicker.Stopped?)
  {
    var s := StepLoop(loop, version, e, w);
    assert |s.notices| <= 1;
    if |s.notices| == 1 {
      assert s.notices[1..] == [];
    }
  }

  /**
    The new-version notification fires at most once over any run, and never
    once the ticker has stopped, given that a stopped ticker delivers no
    tick (see `EventLoop.Ticker`).
   */
  lemma {:induction false} AtMostOneNewVersionNotice(loop: Loop, version: string, inputs: seq<Input>)
    ensures NewVersionNotices(RunLoop(loop, version, inputs).notices)
         <= (if loop.versionTicker.Ticking? then 1 else 0)
    decreases |inputs|
  {
    if |inputs| > 0 {
      var s := StepLoop(loop, version, inputs[0].event, inputs[0].world);
      StepNewVersionNotices(loop, version, inputs[0].event, inputs[0].world);
      if s.exit == Continue {
        AtMostOneNewVersionNotice(s.loop, version, inputs[1..]);
        NewVersionNoticesAppend(s.notices, RunLoop(s.loop, version, inputs[1..]).notices);
      }
    }
  }

  /** A stopped version ticker means a new version was found, and stays so. */
  predicate VersionFlagAgrees(loop: Loop) {
    loop.versionTicker.Stopped? ==> loop.status.newVersionAvailable
  }

  /** Every step keeps the version flag in line with the ticker. */
  lemma StepKeepsVersionFlag(loop: Loop, version: string, e: Event, w: World)
    requires VersionFlagAgrees(loop)
    ensures VersionFlagAgrees(StepLoop(loop, version, e, w).loop)
  {
  }

  /** Over any run the flag stays in line with the ticker. */
  lemma {:induction false} RunKeepsVersionFlag(loop: Loop, version: string, inputs: seq<Input>)
    requires VersionFlagAgrees(loop)
    ensures VersionFlagAgrees(RunLoop(loop, version, inputs).loop)
    decreases |inputs|
  {
    if |inputs| > 0 {
      var s := StepLoop(loop, version, inputs[0].event, inputs[0].world);
      StepKeepsVersionFlag(loop, version, inputs[0].event, inputs[0].world);
      if s.exit == Continue {
        RunKeepsVersionFlag(s.loop, version, inputs[1..]);
      }
    }
  }

  /** The status lists the runtime gateways, or nothing right after a disconnect or quit. */
  predicate StatusShowsGateways(loop: Loop) {
    loop.status.gateways == [] || ProtobufGatewaysToApiGateways(loop.status.gateways) == loop.gateways
  }

  /** Every step keeps the status gateway list a view of the runtime gateways. */
  lemma StepKeepsGatewayView(loop: Loop, version: string, e: Event, w: World)
    requires StatusShowsGateways(loop)
    ensures StatusShowsGateways(StepLoop(loop, version, e, w).loop)
  {
  }

  /** Over any run the status gateway list stays a view of the runtime gateways. */
  lemma {:induction false} RunKeepsGatewayView(loop: Loop, version: string, inputs: seq<Input>)
    requires StatusShowsGateways(loop)
    ensures StatusShowsGateways(RunLoop(loop, version, inputs).loop)
    decreases |inputs|
  {
    if |inputs| > 0 {
      var s := StepLoop(loop, version, inputs[0].event, inputs[0].world);
      StepKeepsGatewayView(loop, version, inputs[0].event, inputs[0].world);
      if s.exit == Continue {
        RunKeepsGatewayView(s.loop, version, inputs[1..]);
      }
    }
  }

  /** An input that is a ticker firing. */
  predicate IsTick(i: Input) {
    i.event.VersionTick? || i.event.SyncConfigTick? || i.event.HealthCheckTick?
  }

  /**
    Out of `Connected`, tickers alone never move the loop: it asks for no
    state and stays where it is. In particular `Unhealthy` is left only by
    an explicit request.
   */
  lemma {:induction false} TicksKeepState(loop: Loop, version: string, inputs: seq<Input>)
    requires loop.status.connectionState != Connected
    requires forall i :: 0 <= i < |inputs| ==> IsTick(inputs[i])
    ensures var t := RunLoop(loop, version, inputs);
      t.requests == [] && t.exit == Continue && t.loop.status.connectionState == loop.status.connectionState
    decreases |inputs|
  {
    if |inputs| > 0 {
      var s := StepLoop(loop, version, inputs[0].event, inputs[0].world);
      assert IsTick(inputs[0]);
      assert s.request == None && s.exit == Continue;
      assert forall i :: 0 <= i < |inputs[1..]| ==> inputs[1..][i] == inputs[i + 1];
      TicksKeepState(s.loop, version, inputs[1..]);
    }
  }

  /** The loop as it starts meets both run invariants. */
  lemma InitEstablishesInvariants(bootstrap: Option<Bootstrap>, session: Option<Session>, gws: seq<ApiGateway>)
    ensures var l := Init(bootstrap, session, gws).loop;
      VersionFlagAgrees(l) && StatusShowsGateways(l) && l.versionTicker.Ticking?
  {
  }

  /**
    Every run from the start keeps the version flag in line with the ticker
    and the status gateway list a view of the runtime gateways, and notifies
    of a new version at most once.
   */
  lemma RunFromInit(bootstrap: Option<Bootstrap>, session: Option<Session>, gws: seq<ApiGateway>,
                    version: string, inputs: seq<Input>)
    ensures var t := RunLoop(Init(bootstrap, session, gws).loop, version, inputs);
      && VersionFlagAgrees(t.loop)
      && StatusShowsGateways(t.loop)
      && NewVersionNotices(t.notices) <= 1
  {
    var l := Init(bootstrap, session, gws).loop;
    InitEstablishesInvariants(bootstrap, session, gws);
    RunKeepsVersionFlag(l, version, inputs);
    RunKeepsGatewayView(l, version, inputs);
    AtMostOneNewVersionNotice(l, version, inputs);
  }

  // ---------------------------------------------------------------------
  // Request chains

  /**
    The loop feeding itself: enter `next` with the first world's answers,
    then each requested state in turn with the following worlds, until a
    step asks for nothing, stops the loop, or the worlds run out.
   */
  function Follow(loop: Loop, version: string, next: AgentState, worlds: seq<World>): Trace
    decreases |worlds|
  {
    if |worlds| == 0 then Trace(loop, [], [], Continue)
    else
      var s := StepLoop(loop, version, StateChange(next), worlds[0]);
      if s.exit != Continue || s.request.None? then Trace(s.loop, Requested(s), s.notices, s.exit)
      else
        var rest := Follow(s.loop, version, s.request.value, worlds[1..]);
        Trace(rest.loop, [s.request.value] + rest.requests, s.notices + rest.notices, rest.exit)
  }

  /** Answers under which connecting goes through. */
  predicate Cooperative(w: World) {
    w.bootstrap.Some? && w.helperOpens && w.helperAccepts && w.auth.Some? && w.fetch.Fetched?
  }

  /** Following a chain: a step that continues with a request is followed by the chain from that request. */
  lemma FollowCons(loop: Loop, version: string, next: AgentState, w: World, worlds: seq<World>)
    ensures var s := StepLoop(loop, version, StateChange(next), w);
      s.exit == Continue && s.request.Some? ==>
        var rest := Follow(s.loop, version, s.request.value, worlds);
        Follow(loop, version, next, [w] + worlds)
        == Trace(rest.loop, [s.request.value] + rest.requests, s.notices + rest.notices, rest.exit)
  {
    assert ([w] + worlds)[0] == w && ([w] + worlds)[1..] == worlds;
  }

  /** Following a chain: a step that requests nothing ends it. */
  lemma FollowLast(loop: Loop, version: string, next: AgentState, w: World, worlds: seq<World>)
    ensures var s := StepLoop(loop, version, StateChange(next), w);
      s.exit != Continue || s.request.None? ==>
        Follow(loop, version, next, [w] + worlds) == Trace(s.loop, Requested(s), s.notices, s.exit)
  {
    assert ([w] + worlds)[0] == w;
  }

  /**
    What a chain is made of: no worlds, no step; at most one request per
    world; the first request is what entering `next` asked for; and the
    chain rests in `next` or in a state some step asked for.
   */
  lemma {:induction false} FollowShape(loop: Loop, version: string, next: AgentState, worlds: seq<World>)
    ensures var t := Follow(loop, version, next, worlds);
      && (|worlds| == 0 ==> t == Trace(loop, [], [], Continue))
      && |t.requests| <= |worlds|
      && (|worlds| > 0 && t.requests != [] ==>
            Some(t.requests[0]) == StepLoop(loop, version, StateChange(next), worlds[0]).request)
      && (|worlds| > 0 ==>
            t.loop.status.connectionState == next || t.loop.status.connectionState in t.requests)
    decreases |worlds|
  {
    if |worlds| > 0 {
      var s := StepLoop(loop, version, StateChange(next), worlds[0]);
      if s.exit == Continue && s.request.Some? {
        FollowShape(s.loop, version, s.request.value, worlds[1..]);
      }
    }
  }

  lemma BootstrapStep(loop: Loop, version: string, w: World)
    requires Cooperative(w)
    ensures var s := StepLoop(loop, version, StateChange(Bootstrapping), w);
      && s.request == Some(Authenticating) && s.exit == Continue && s.notices == []
      && s.loop.bootstrap.Some? && s.loop.helperStream
  {
  }

  lemma AuthenticateStep(loop: Loop, version: string, w: World)
    requires Cooperative(w)
    ensures var s := StepLoop(loop, version, StateChange(Authenticating), w);
      && s.request == Some(SyncConfig) && s.exit == Continue && s.notices == []
      && s.loop.session.Some? && s.loop.status.connectedSince == Some(w.now)
      && s.loop.bootstrap == loop.bootstrap && s.loop.helperStream == loop.helperStream
  {
  }

  lemma SyncStep(loop: Loop, version: string, w: World)
    requires Cooperative(w) && loop.session.Some? && loop.bootstrap.Some? && loop.helperStream
    ensures var s := StepLoop(loop, version, StateChange(SyncConfig), w);
      && s.request == Some(HealthCheck) && s.exit == Continue && s.notices == []
      && s.loop.gateways == w.fetch.gateways
      && s.loop.session == loop.session && s.loop.status.connectedSince == loop.status.connectedSince
  {
  }

  lemma HealthCheckStep(loop: Loop, version: string, w: World)
    ensures var s := StepLoop(loop, version, StateChange(HealthCheck), w);
      && s.request == Some(Connected) && s.exit == Continue && s.notices == []
      && s.loop.gateways == HealthCheckPass(loop.gateways, w.reachable)
      && s.loop.status.gateways == ApiGatewaysToProtobufGateways(s.loop.gateways)
      && s.loop.session == loop.session && s.loop.status.connectedSince == loop.status.connectedSince
  {
  }

  lemma ConnectedStep(loop: Loop, version: string, w: World)
    ensures StepLoop(loop, version, StateChange(Connected), w)
         == Quiet(loop.(status := loop.status.(connectionState := Connected)))
  {
  }

  /** The second half of connecting: sync, health check, and rest in `Connected`. */
  lemma SyncToConnected(loop: Loop, version: string, w: World)
    requires Cooperative(w) && loop.session.Some? && loop.bootstrap.Some? && loop.helperStream
    ensures var t := Follow(loop, version, SyncConfig, [w, w, w]);
      && t.requests == [HealthCheck, Connected]
      && t.exit == Continue
      && t.notices == []
      && t.loop.status.connectionState == Connected
      && t.loop.session == loop.session
      && t.loop.status.connectedSince == loop.status.connectedSince
      && t.loop.gateways == HealthCheckPass(w.fetch.gateways, w.reachable)
      && t.loop.status.gateways == ApiGatewaysToProtobufGateways(t.loop.gateways)
  {
    var s3 := StepLoop(loop, version, StateChange(SyncConfig), w);
    SyncStep(loop, version, w);
    var s4 := StepLoop(s3.loop, version, StateChange(HealthCheck), w);
    HealthCheckStep(s3.loop, version, w);
    ConnectedStep(s4.loop, version, w);
    FollowLast(s4.loop, version, Connected, w, []);
    FollowCons(s3.loop, version, HealthCheck, w, [w]);
    FollowCons(loop, version, SyncConfig, w, [w, w]);
    assert [w] + [] == [w] && [w] + [w] == [w, w] && [w] + [w, w] == [w, w, w];
  }

  /** The loop once bootstrapping and authentication went through. */
  function Authenticated(loop: Loop, version: string, w: World): Loop {
    StepLoop(StepLoop(loop, version, StateChange(Bootstrapping), w).loop, version, StateChange(Authenticating), w).loop
  }

  /** The first half of connecting: bootstrap, authenticate, and go on to sync. */
  lemma BootstrapToSync(loop: Loop, version: string, w: World, tail: seq<World>)
    requires Cooperative(w)
    ensures var l := Authenticated(loop, version, w);
      && l.session.Some? && l.bootstrap.Some? && l.helperStream && l.status.connectedSince == Some(w.now)
      && (var rest := Follow(l, version, SyncConfig, tail);
          Follow(loop, version, Bootstrapping, [w, w] + tail)
          == Trace(rest.loop, [Authenticating, SyncConfig] + rest.requests, rest.notices, rest.exit))
  {
    var s1 := StepLoop(loop, version, StateChange(Bootstrapping), w);
    BootstrapStep(loop, version, w);
    AuthenticateStep(s1.loop, version, w);
    FollowCons(s1.loop, version, Authenticating, w, tail);
    FollowCons(loop, version, Bootstrapping, w, [w] + tail);
    assert [w] + ([w] + tail) == [w, w] + tail;
  }

  /**
    Connecting when everything answers: bootstrapping leads through
    authentication, sync and health check to `Connected`, where the chain
    rests. The status then lists the fetched gateways with their probe
    results and the connect time, and the session is in place.
   */
  lemma ConnectChain(loop: Loop, version: string, w: World)
    requires Cooperative(w)
    ensures var t := Follow(loop, version, Bootstrapping, [w, w, w, w, w]);
      && t.requests == [Authenticating, SyncConfig, HealthCheck, Connected]
      && t.exit == Continue
      && t.notices == []
      && t.loop.status.connectionState == Connected
      && t.loop.session.Some?
      && t.loop.status.connectedSince == Some(w.now)
      && t.loop.gateways == HealthCheckPass(w.fetch.gateways, w.reachable)
      && t.loop.status.gateways == ApiGatewaysToProtobufGateways(t.loop.gateways)
  {
    BootstrapToSync(loop, version, w, [w, w, w]);
    SyncToConnected(Authenticated(loop, version, w), version, w);
    assert [w, w] + [w, w, w] == [w, w, w, w, w];
  }

  /**
    An unauthorized fetch drops the session and disconnects: sync asks for
    `Disconnecting`, which asks for `Disconnected`, which clears the gateway
    list and rests. The next authentication therefore calls the
    authenticator, whether or not the old session had expired.
   */
  lemma ReauthenticateAfterUnauthorized(loop: Loop, version: string, w1: World, w2: World, w3: World, w4: World)
    requires loop.session.Some? && loop.helperStream
    requires w1.fetch.Unauthorized?
    ensures var t := Follow(loop, version, SyncConfig, [w1, w2, w3]);
      && t.requests == [Disconnecting, Disconnected]
      && t.exit == Continue
      && t.loop.session.None?
      && t.loop.status.connectionState == Disconnected
      && t.loop.status.gateways == []
      && StepLoop(t.loop, version, StateChange(Authenticating), w4).loop.session == w4.auth
  {
    var s1 := StepLoop(loop, version, StateChange(SyncConfig), w1);
    assert s1.request == Some(Disconnecting) && s1.loop.session.None? && s1.exit == Continue;
    var s2 := StepLoop(s1.loop, version, StateChange(Disconnecting), w2);
    assert s2.request == Some(Disconnected) && s2.exit == Continue;
    var s3 := StepLoop(s2.loop, version, StateChange(Disconnected), w3);
    assert s3.request == None;
    FollowLast(s2.loop, version, Disconnected, w3, []);
    FollowCons(s1.loop, version, Disconnecting, w2, [w3]);
    FollowCons(loop, version, SyncConfig, w1, [w2, w3]);
    assert [w3] + [] == [w3] && [w2] + [w3] == [w2, w3] && [w1] + [w2, w3] == [w1, w2, w3];
  }

  /** An unhealthy device stops the chain in `Unhealthy`, keeping its session and gateways. */
  lemma UnhealthyChain(loop: Loop, version: string, w1: World, w2: World)
    requires loop.session.Some?
    requires w1.fetch.DeviceUnhealthy?
    ensures var t := Follow(loop, version, SyncConfig, [w1, w2]);
      && t.requests == [Unhealthy]
      && t.exit == Continue
      && t.notices == [DeviceUnhealthyNotice]
      && t.loop.status.connectionState == Unhealthy
      && t.loop.session == loop.session && t.loop.gateways == loop.gateways
  {
    var ws := [w1, w2];
    assert ws[1..] == [w2];
  }
}

=== FILE: gateway_agent.dfy ===
/**
  The WireGuard configuration the gateway agent renders
  (cmd/gateway-agent/main.go): a fixed base block with the gateway's own
  interface and two always-on peers (the API server and prometheus), followed
  by one `[Peer]` stanza per registered device.
 */
module GatewayAgent {
  import opened Outcomes
  import opened WgConf

  /** One device entry of the control plane's `/gatewayconfig` answer. */
  datatype Device = Device(psk: string, publicKey: string, ip: string)

  /** The `/gatewayconfig` answer: the devices to peer with and the routes to forward. */
  datatype GatewayConfig = GatewayConfig(devices: seq<Device>, routes: seq<string>)

  /** The gateway agent's configuration, as far as the core reads it. */
  datatype Config = Config(
    privateKey: string,
    apiServerPublicKey: string,
    apiServerTunnelIP: string,
    apiServerWireGuardEndpoint: string,
    prometheusPublicKey: string,
    prometheusTunnelIP: string,
    defaultInterface: string,
    defaultInterfaceIP: string,
    devMode: bool)

  /** The UDP port the gateway's WireGuard interface listens on. */
  const ListenPort: string := "51820"

  /** The interface section of the base configuration. */
  function InterfaceLines(cfg: Config): seq<Line> {
    [Section("Interface", ""), Pair("PrivateKey", cfg.privateKey), Pair("ListenPort", ListenPort), Blank]
  }

  /** The API server peer: reachable at its tunnel address, through its endpoint. */
  function ApiServerPeerLines(cfg: Config): seq<Line> {
    [ Section("Peer", "apiserver"),
      Pair("PublicKey", cfg.apiServerPublicKey),
      Pair("AllowedIPs", cfg.apiServerTunnelIP + "/32"),
      Pair("Endpoint", cfg.apiServerWireGuardEndpoint),
      Blank ]
  }

  /** The prometheus peer: reachable at its tunnel address, with no endpoint. */
  function PrometheusPeerLines(cfg: Config): seq<Line> {
    [ Section("Peer", "prometheus"),
      Pair("PublicKey", cfg.prometheusPublicKey),
      Pair("AllowedIPs", cfg.prometheusTunnelIP + "/32"),
      Blank ]
  }

  /** What the base configuration means, section by section. */
  function BaseConfigLines(cfg: Config): seq<Line> {
    InterfaceLines(cfg) + ApiServerPeerLines(cfg) + PrometheusPeerLines(cfg)
  }

  /**
    The base configuration: the template, block by block. It is the
    rendering of the interface block, the API server peer and the
    prometheus peer.
   */
  function GenerateBaseConfig(cfg: Config): (text: string)
    ensures text == Render(BaseConfigLines(cfg))
  {
    BaseConfigTexts(cfg);
    Join(BaseInterfaceTexts(cfg) + ApiServerTexts(cfg) + PrometheusTexts(cfg))
  }

  /** The template's interface block. */
  function BaseInterfaceTexts(cfg: Config): seq<string> {
    ["[Interface]", "PrivateKey = " + cfg.privateKey, "ListenPort = " + ListenPort, ""]
  }

  /** The template's API server block. */
  function ApiServerTexts(cfg: Config): seq<string> {
    [ "[Peer] # apiserver", "PublicKey = " + cfg.apiServerPublicKey,
      "AllowedIPs = " + cfg.apiServerTunnelIP + "/32",
      "Endpoint = " + cfg.apiServerWireGuardEndpoint, "" ]
  }

  /** The template's prometheus block. */
  function PrometheusTexts(cfg: Config): seq<string> {
    [ "[Peer] # prometheus", "PublicKey = " + cfg.prometheusPublicKey,
      "AllowedIPs = " + cfg.prometheusTunnelIP + "/32", "" ]
  }

  /** The configuration fields contain no line breaks. */
  predicate ConfigWellFormed(cfg: Config) {
    && '\n' !in cfg.privateKey
    && '\n' !in cfg.apiServerPublicKey
    && '\n' !in cfg.apiServerTunnelIP
    && '\n' !in cfg.apiServerWireGuardEndpoint
    && '\n' !in cfg.prometheusPublicKey
    && '\n' !in cfg.prometheusTunnelIP
  }

  predicate DeviceWellFormed(d: Device) {
    '\n' !in d.publicKey && '\n' !in d.ip
  }

  predicate DevicesWellFormed(ds: seq<Device>) {
    forall i :: 0 <= i < |ds| ==> DeviceWellFormed(ds[i])
  }

  /** The stanza rendered for one device. */
  function PeerStanza(d: Device): string {
    Join(["[Peer]", "PublicKey = " + d.publicKey, "AllowedIPs = " + d.ip])
  }


  /** The lines of one device's stanza. */
  function StanzaLines(d: Device): seq<Line> {
    [Section("Peer", ""), Pair("PublicKey", d.publicKey), Pair("AllowedIPs", d.ip)]
  }

  /** The lines of the device peers: three per device, the header, the
      device's public key and its address as the only allowed IP. */
  function PeerLines(devices: seq<Device>): (ls: seq<Line>)
    ensures |ls| == 3 * |devices|
    ensures forall i :: 0 <= i < |devices| ==>
      && ls[3 * i] == Section("Peer", "")
      && ls[3 * i + 1] == Pair("PublicKey", devices[i].publicKey)
      && ls[3 * i + 2] == Pair("AllowedIPs", devices[i].ip)
  {
    if |devices| == 0 then []
    else
      var d := devices[0];
      var rest := PeerLines(devices[1..]);
      var ls := StanzaLines(d) + rest;
      assert forall i :: 1 <= i < |devices| ==> devices[i] == devices[1..][i - 1];
      assert forall i :: 1 <= i < |devices| ==> ls[3 * i] == rest[3 * (i - 1)];
      ls
  }

  /**
    The device peers, one stanza per device in input order (the `for` loop
    that appends to `peers`): the rendering of `PeerLines`.
   */
  function GenerateWireGuardPeers(devices: seq<Device>): (peers: string)
    ensures peers == Render(PeerLines(devices))
  {
    if |devices| == 0 then
      assert Texts([]) == [];
      ""
    else
      StanzaIsRendered(devices[0]);
      RenderAppend(StanzaLines(devices[0]), PeerLines(devices[1..]));
      PeerStanza(devices[0]) + GenerateWireGuardPeers(devices[1..])
  }

  /** The text handed to `actuateWireGuardConfig` on every poll cycle: the base block, then the device peers. */
  function ActuatedConfig(cfg: Config, devices: seq<Device>): (text: string)
    ensures text == Render(BaseConfigLines(cfg) + PeerLines(devices))
  {
    RenderAppend(BaseConfigLines(cfg), PeerLines(devices));
    GenerateBaseConfig(cfg) + GenerateWireGuardPeers(devices)
  }

  // ---------------------------------------------------------------------
  // Lemmas

  lemma BaseConfigTexts(cfg: Config)
    ensures Texts(BaseConfigLines(cfg)) == BaseInterfaceTexts(cfg) + ApiServerTexts(cfg) + PrometheusTexts(cfg)
  {
    var i, a, p := InterfaceLines(cfg), ApiServerPeerLines(cfg), PrometheusPeerLines(cfg);
    InterfaceIsRendered(cfg);
    ApiServerIsRendered(cfg);
    PrometheusIsRendered(cfg);
    TextsAppend(i, a);
    TextsAppend(i + a, p);
  }

  lemma InterfaceIsRendered(cfg: Config)
    ensures Texts(InterfaceLines(cfg)) == BaseInterfaceTexts(cfg)
  {
    var t := Texts(InterfaceLines(cfg));
    assert t[0] == "[Interface]" by {
      assert LineText(Section("Interface", "")) == "[Interface]";
    }
    assert t[1] == "PrivateKey = " + cfg.privateKey by {
      PairText("PrivateKey", cfg.privateKey);
      assert "PrivateKey" + " = " == "PrivateKey = ";
    }
    assert t[2] == "ListenPort = " + ListenPort by {
      PairText("ListenPort", ListenPort);
      assert "ListenPort" + " = " == "ListenPort = ";
    }
    assert t[3] == "";
  }

  lemma ApiServerIsRendered(cfg: Config)
    ensures Texts(ApiServerPeerLines(cfg)) == ApiServerTexts(cfg)
  {
    var t := Texts(ApiServerPeerLines(cfg));
    assert t[0] == "[Peer] # apiserver" by {
      assert LineText(Section("Peer", "apiserver")) == "[Peer] # apiserver";
    }
    assert t[1] == "PublicKey = " + cfg.apiServerPublicKey by {
      PairText("PublicKey", cfg.apiServerPublicKey);
      assert "PublicKey" + " = " == "PublicKey = ";
    }
    assert t[2] == "AllowedIPs = " + cfg.apiServerTunnelIP + "/32" by {
      PairText("AllowedIPs", cfg.apiServerTunnelIP + "/32");
      assert "AllowedIPs" + " = " == "AllowedIPs = ";
    }
    assert t[3] == "Endpoint = " + cfg.apiServerWireGuardEndpoint by {
      PairText("Endpoint", cfg.apiServerWireGuardEndpoint);
      assert "Endpoint" + " = " == "Endpoint = ";
    }
    assert t[4] == "";
  }

  lemma PrometheusIsRendered(cfg: Config)
    ensures Texts(PrometheusPeerLines(cfg)) == PrometheusTexts(cfg)
  {
    var t := Texts(PrometheusPeerLines(cfg));
    assert t[0] == "[Peer] # prometheus" by {
      assert LineText(Section("Peer", "prometheus")) == "[Peer] # prometheus";
    }
    assert t[1] == "PublicKey = " + cfg.prometheusPublicKey by {
      PairText("PublicKey", cfg.prometheusPublicKey);
      assert "PublicKey" + " = " == "PublicKey = ";
    }
    assert t[2] == "AllowedIPs = " + cfg.prometheusTunnelIP + "/32" by {
      PairText("AllowedIPs", cfg.prometheusTunnelIP + "/32");
      assert "AllowedIPs" + " = " == "AllowedIPs = ";
    }
    assert t[3] == "";
  }

  lemma InterfaceLinesWellFormed(cfg: Config)
    requires ConfigWellFormed(cfg)
    ensures WellFormed(InterfaceLines(cfg))
  {
    KeyedPairWellFormed("PrivateKey", cfg.privateKey);
    KeyedPairWellFormed("ListenPort", ListenPort);
    var i := InterfaceLines(cfg);
    assert WellFormedLine(i[0]);
  }

  lemma ApiServerPeerLinesWellFormed(cfg: Config)
    requires ConfigWellFormed(cfg)
    ensures WellFormed(ApiServerPeerLines(cfg))
  {
    KeyedPairWellFormed("PublicKey", cfg.apiServerPublicKey);
    CidrHasNoNewline(cfg.apiServerTunnelIP);
    KeyedPairWellFormed("AllowedIPs", cfg.apiServerTunnelIP + "/32");
    KeyedPairWellFormed("Endpoint", cfg.apiServerWireGuardEndpoint);
    var a := ApiServerPeerLines(cfg);
    assert WellFormedLine(a[0]);
  }

  lemma PrometheusPeerLinesWellFormed(cfg: Config)
    requires ConfigWellFormed(cfg)
    ensures WellFormed(PrometheusPeerLines(cfg))
  {
    KeyedPairWellFormed("PublicKey", cfg.prometheusPublicKey);
    CidrHasNoNewline(cfg.prometheusTunnelIP);
    KeyedPairWellFormed("AllowedIPs", cfg.prometheusTunnelIP + "/32");
    var p := PrometheusPeerLines(cfg);
    assert WellFormedLine(p[0]);
  }

  lemma BaseConfigLinesWellFormed(cfg: Config)
    requires ConfigWellFormed(cfg)
    ensures WellFormed(BaseConfigLines(cfg))
  {
    var i, a, p := InterfaceLines(cfg), ApiServerPeerLines(cfg), PrometheusPeerLines(cfg);
    InterfaceLinesWellFormed(cfg);
    ApiServerPeerLinesWellFormed(cfg);
    PrometheusPeerLinesWellFormed(cfg);
    WellFormedAppend(i, a);
    WellFormedAppend(i + a, p);
  }

  /** The base configuration declares exactly two peers. */
  lemma BaseConfigSections(cfg: Config)
    ensures CountSections(BaseConfigLines(cfg), "Peer") == 2
  {
    var i, a, p := InterfaceLines(cfg), ApiServerPeerLines(cfg), PrometheusPeerLines(cfg);
    CountSectionsAppend(i, a, "Peer");
    CountSectionsAppend(i + a, p, "Peer");
    CountSectionsNone(i, "Peer");
    CountSectionsHeadOnly(a, "Peer");
    CountSectionsHeadOnly(p, "Peer");
  }

  /** Reading the base configuration back gives, in order, the interface
      section with `ListenPort = 51820`, the API server peer with its tunnel
      address as a /32 and its endpoint, and the prometheus peer with its
      tunnel address as a /32 and no endpoint. */
  lemma BaseConfigParses(cfg: Config)
    requires ConfigWellFormed(cfg)
    ensures Parse(GenerateBaseConfig(cfg)) == Some(
      [Section("Interface", ""), Pair("PrivateKey", cfg.privateKey), Pair("ListenPort", "51820"), Blank]
      + [ Section("Peer", "apiserver"),
          Pair("PublicKey", cfg.apiServerPublicKey),
          Pair("AllowedIPs", cfg.apiServerTunnelIP + "/32"),
          Pair("Endpoint", cfg.apiServerWireGuardEndpoint),
          Blank ]
      + [ Section("Peer", "prometheus"),
          Pair("PublicKey", cfg.prometheusPublicKey),
          Pair("AllowedIPs", cfg.prometheusTunnelIP + "/32"),
          Blank ])
  {
    BaseConfigLinesWellFormed(cfg);
    ParseRender(BaseConfigLines(cfg));
  }

  /** No devices render to nothing, and rendering distributes over
      concatenation of device lists. */
  lemma {:induction false} PeersAppend(a: seq<Device>, b: seq<Device>)
    ensures GenerateWireGuardPeers([]) == ""
    ensures GenerateWireGuardPeers(a + b) == GenerateWireGuardPeers(a) + GenerateWireGuardPeers(b)
  {
    if |a| == 0 {
      assert a + b == b;
    } else {
      assert (a + b)[0] == a[0];
      assert (a + b)[1..] == a[1..] + b;
      PeersAppend(a[1..], b);
    }
  }

  lemma StanzaIsRendered(d: Device)
    ensures PeerStanza(d) == Render(StanzaLines(d))
  {
    var t := Texts(StanzaLines(d));
    assert t[0] == "[Peer]" by {
      assert LineText(Section("Peer", "")) == "[Peer]";
    }
    assert t[1] == "PublicKey = " + d.publicKey by {
      PairText("PublicKey", d.publicKey);
      assert "PublicKey" + " = " == "PublicKey = ";
    }
    assert t[2] == "AllowedIPs = " + d.ip by {
      PairText("AllowedIPs", d.ip);
      assert "AllowedIPs" + " = " == "AllowedIPs = ";
    }
    assert t == ["[Peer]", "PublicKey = " + d.publicKey, "AllowedIPs = " + d.ip];
  }

  lemma {:induction false} PeerLinesWellFormed(devices: seq<Device>)
    requires DevicesWellFormed(devices)
    ensures WellFormed(PeerLines(devices))
  {
    var ls := PeerLines(devices);
    forall j | 0 <= j < |ls| ensures WellFormedLine(ls[j]) {
      var i := j / 3;
      assert 0 <= i < |devices| && DeviceWellFormed(devices[i]);
      assert j == 3 * i || j == 3 * i + 1 || j == 3 * i + 2;
    }
  }

  lemma {:induction false} PeerLinesSections(devices: seq<Device>)
    ensures CountSections(PeerLines(devices), "Peer") == |devices|
  {
    if |devices| > 0 {
      var head := StanzaLines(devices[0]);
      PeerLinesSections(devices[1..]);
      CountSectionsAppend(head, PeerLines(devices[1..]), "Peer");
      assert CountSections(head, "Peer") == 1 by {
        CountSectionsCons(head[0], head[1..], "Peer");
        CountSectionsCons(head[1], head[2..], "Peer");
        CountSectionsCons(head[2], [], "Peer");
        assert head == [head[0]] + head[1..];
        assert head[1..] == [head[1]] + head[2..];
        assert head[2..] == [head[2]] + [];
      }
    }
  }

  /** Reading the device peers back gives exactly one `[Peer]` stanza per
      device, in input order, with the device's public key and its address as
      the allowed IPs. */
  lemma DevicePeersParse(devices: seq<Device>)
    requires DevicesWellFormed(devices)
    ensures Parse(GenerateWireGuardPeers(devices)) == Some(PeerLines(devices))
    ensures CountSections(PeerLines(devices), "Peer") == |devices|
  {
    PeerLinesWellFormed(devices);
    ParseRender(PeerLines(devices));
    PeerLinesSections(devices);
  }

  /** The configuration actuated on each poll cycle reads back as the base
      block followed by the device stanzas, with two fixed peers plus one per
      device. */
  lemma ActuatedConfigParses(cfg: Config, devices: seq<Device>)
    requires ConfigWellFormed(cfg) && DevicesWellFormed(devices)
    ensures Parse(ActuatedConfig(cfg, devices)) == Some(BaseConfigLines(cfg) + PeerLines(devices))
    ensures CountSections(BaseConfigLines(cfg) + PeerLines(devices), "Peer") == 2 + |devices|
  {
    var base := BaseConfigLines(cfg);
    BaseConfigLinesWellFormed(cfg);
    PeerLinesWellFormed(devices);
    WellFormedAppend(base, PeerLines(devices));
    ParseRender(base + PeerLines(devices));
    PeerLinesSections(devices);
    CountSectionsAppend(base, PeerLines(devices), "Peer");
    BaseConfigSections(cfg);
  }
}

=== FILE: gateway_poll.dfy ===
/**
  The gateway agent's start-up and its ten-second poll cycle
  (cmd/gateway-agent/main.go, `main`). The control-plane fetch, the
  `ip`/`wg` commands and the kernel are outside the model: their outcomes
  are inputs, and the state records what they were asked to do.
 */
module GatewayPoll {
  import opened Outcomes
  import opened WgConf
  import opened GatewayAgent
  import opened Iptables

  /** What the agent has put in place. `interface` is the text `wg syncconf` last accepted. */
  datatype Gateway = Gateway(failedFetches: nat, interface: Option<string>, firewall: Firewall)

  /** Outcomes of one cycle's external calls: the fetched config, or None for any fetch error, and whether `wg syncconf` succeeded. */
  datatype Cycle = Cycle(fetched: Option<GatewayConfig>, actuated: bool)

  /** Installing a configuration: it becomes the interface's when actuation succeeded. */
  function Actuate(gw: Gateway, text: string, actuated: bool): (r: Gateway)
    ensures r.failedFetches == gw.failedFetches && r.firewall == gw.firewall
    ensures r.interface == (if actuated then Some(text) else gw.interface)
  {
    if actuated then gw.(interface := Some(text)) else gw
  }

  /**
    One pass of the poll loop. A failed fetch is counted and nothing else
    happens; in development mode a fetched config has no side effects;
    otherwise the agent actuates base plus peers and then forwards the
    routes, whatever the actuation's outcome. Errors from either step are
    only logged.
   */
  function PollCycle(gw: Gateway, cfg: Config, faults: Faults, c: Cycle): (r: Gateway)
    ensures c.fetched.None? ==> r == gw.(failedFetches := gw.failedFetches + 1)
    ensures c.fetched.Some? ==> r.failedFetches == gw.failedFetches
    ensures c.fetched.Some? && cfg.devMode ==> r == gw
    ensures gw.firewall.rules <= r.firewall.rules && SameFrame(r.firewall, gw.firewall)
    ensures c.fetched.Some? && !cfg.devMode ==>
      r.firewall == ForwardRoutes(gw.firewall, faults, cfg, c.fetched.value.routes).fw
    ensures c.fetched.Some? && !cfg.devMode && c.actuated ==>
      r.interface == Some(ActuatedConfig(cfg, c.fetched.value.devices))
    ensures !c.actuated ==> r.interface == gw.interface
  {
    match c.fetched
    case None => gw.(failedFetches := gw.failedFetches + 1)
    case Some(config) =>
      if cfg.devMode then gw
      else
        var actuated := Actuate(gw, ActuatedConfig(cfg, config.devices), c.actuated);
        actuated.(firewall := ForwardRoutes(actuated.firewall, faults, cfg, config.routes).fw)
  }

  /**
    The poll cycle reaches a steady state: repeating a cycle with the same
    answer from the control plane and the same outcomes leaves everything
    where the first one put it, except the count of failed fetches.
   */
  lemma PollCycleSteady(gw: Gateway, cfg: Config, faults: Faults, c: Cycle)
    requires c.fetched.Some?
    ensures PollCycle(PollCycle(gw, cfg, faults, c), cfg, faults, c) == PollCycle(gw, cfg, faults, c)
  {
    if !cfg.devMode {
      var routes := c.fetched.value.routes;
      var actuated := Actuate(gw, ActuatedConfig(cfg, c.fetched.value.devices), c.actuated);
      ForwardRoutesIdempotent(actuated.firewall, faults, cfg, routes);
    }
  }

  /**
    After a cycle that fetched, actuated and forwarded without error, the
    interface holds a configuration that reads back as the base block plus
    one peer per device, and every route has its SNAT and forwarding rule.
   */
  lemma PollCycleInstalls(gw: Gateway, cfg: Config, faults: Faults, c: Cycle)
    requires c.fetched.Some? && !cfg.devMode && c.actuated
    requires ConfigWellFormed(cfg) && DevicesWellFormed(c.fetched.value.devices)
    requires RoutesAppendable(gw.firewall, faults, cfg, c.fetched.value.routes)
    ensures var r := PollCycle(gw, cfg, faults, c);
      && r.interface.Some?
      && Parse(r.interface.value) == Some(BaseConfigLines(cfg) + PeerLines(c.fetched.value.devices))
      && CountSections(BaseConfigLines(cfg) + PeerLines(c.fetched.value.devices), "Peer")
         == 2 + |c.fetched.value.devices|
      && RoutesForwarded(r.firewall, cfg, c.fetched.value.routes)
  {
    var config := c.fetched.value;
    ActuatedConfigParses(cfg, config.devices);
    ForwardRoutesSucceeds(gw.firewall, faults, cfg, config.routes);
    ForwardRoutesForwards(gw.firewall, faults, cfg, config.routes);
  }

  /**
    Routes are forwarded whether or not the actuation succeeded: outside
    development mode, a cycle that fetched a config whose route rules can
    all be appended leaves every route with its SNAT and forwarding rule,
    also when `wg syncconf` failed.
   */
  lemma PollCycleForwardsRoutes(gw: Gateway, cfg: Config, faults: Faults, c: Cycle)
    requires c.fetched.Some? && !cfg.devMode
    ensures var r := PollCycle(gw, cfg, faults, c);
      RoutesAppendable(gw.firewall, faults, cfg, c.fetched.value.routes) ==>
        RoutesForwarded(r.firewall, cfg, c.fetched.value.routes)
  {
    var routes := c.fetched.value.routes;
    if RoutesAppendable(gw.firewall, faults, cfg, routes) {
      ForwardRoutesSucceeds(gw.firewall, faults, cfg, routes);
      ForwardRoutesForwards(gw.firewall, faults, cfg, routes);
    }
  }

  // ---------------------------------------------------------------------
  // Start-up

  /** Outcomes of start-up's external calls. */
  datatype Boot = Boot(interfaceUp: bool, iptablesAvailable: bool, baseActuated: bool)

  /** Why start-up stopped the process. */
  datatype FatalError = InterfaceFailed | IptablesUnavailable | IptablesSetupFailed(err: SetupError) | BaseConfigFailed

  /** How start-up ends: a fatal log line, or the poll loop with the agent's initial state. */
  datatype Started = Fatal(reason: FatalError) | Running(gw: Gateway)

  /**
    Start-up: outside development mode, bring the interface up, open
    iptables and run `setupIptables`, each failure fatal; then actuate the
    base configuration, whose failure is fatal only outside development mode.
   */
  function Startup(fw: Firewall, cfg: Config, faults: Faults, boot: Boot): (r: Started)
    ensures cfg.devMode ==> r.Running? && r.gw.firewall == fw
    ensures r.Running? ==> r.gw.failedFetches == 0
    ensures r.Running? && !cfg.devMode ==>
      && r.gw.interface == Some(GenerateBaseConfig(cfg))
      && ("filter", "FORWARD") in r.gw.firewall.policies
      && r.gw.firewall.policies[("filter", "FORWARD")] == "DROP"
      && OutboundRule(cfg) in r.gw.firewall.rules && InboundRule(cfg) in r.gw.firewall.rules
      && LogRule in r.gw.firewall.rules && AcceptRule in r.gw.firewall.rules
    ensures !cfg.devMode ==>
      (r.Running? <==> boot.interfaceUp && boot.iptablesAvailable
                       && SetupIptables(fw, faults, cfg).err == None && boot.baseActuated)
  {
    if !cfg.devMode && !boot.interfaceUp then Fatal(InterfaceFailed)
    else if !cfg.devMode && !boot.iptablesAvailable then Fatal(IptablesUnavailable)
    else
      var setUp := if cfg.devMode then SetUp(fw, None) else SetupIptables(fw, faults, cfg);
      if setUp.err.Some? then Fatal(IptablesSetupFailed(setUp.err.value))
      else if !boot.baseActuated && !cfg.devMode then Fatal(BaseConfigFailed)
      else Running(Actuate(Gateway(0, None, setUp.fw), GenerateBaseConfig(cfg), boot.baseActuated))
  }

  /** The base configuration start-up actuates reads back as the interface and the two fixed peers. */
  lemma StartupInstallsBase(fw: Firewall, cfg: Config, faults: Faults, boot: Boot)
    requires ConfigWellFormed(cfg) && !cfg.devMode
    requires Startup(fw, cfg, faults, boot).Running?
    ensures var gw := Startup(fw, cfg, faults, boot).gw;
      && gw.interface.Some?
      && Parse(gw.interface.value) == Some(BaseConfigLines(cfg))
      && CountSections(BaseConfigLines(cfg), "Peer") == 2
  {
    BaseConfigParses(cfg);
    BaseConfigSections(cfg);
  }
}

=== FILE: gateways.dfy ===
/**
  The device agent's gateway list (pkg/device-agent/eventloop.go): the
  control plane's gateway records, their conversion to the status type and
  the health-check pass that sets each gateway's health from a probe.
 */
module Gateways {
  import Pb

  /** A gateway as the control plane describes it. */
  datatype ApiGateway = ApiGateway(
    name: string,
    publicKey: string,
    endpoint: string,
    ip: string,
    routes: seq<string>,
    requiresPrivilegedAccess: bool,
    healthy: bool)

  /** One gateway in the status type: the same fields, and no access groups. */
  function ToPb(g: ApiGateway): Pb.Gateway {
    Pb.Gateway(g.name, g.healthy, g.publicKey, g.endpoint, g.ip, g.routes, g.requiresPrivilegedAccess, [])
  }

  /** `ApiGatewaysToProtobufGateways`: each gateway converted, in order. */
  function ApiGatewaysToProtobufGateways(gws: seq<ApiGateway>): (pbs: seq<Pb.Gateway>)
    ensures |pbs| == |gws|
    ensures forall i :: 0 <= i < |gws| ==>
      && pbs[i].name == gws[i].name
      && pbs[i].healthy == gws[i].healthy
      && pbs[i].publicKey == gws[i].publicKey
      && pbs[i].endpoint == gws[i].endpoint
      && pbs[i].ip == gws[i].ip
      && pbs[i].routes == gws[i].routes
      && pbs[i].requiresPrivilegedAccess == gws[i].requiresPrivilegedAccess
      && pbs[i].accessGroupIds == []
  {
    if |gws| == 0 then [] else [ToPb(gws[0])] + ApiGatewaysToProtobufGateways(gws[1..])
  }

  /** The control-plane record a status gateway carries. */
  function FromPb(p: Pb.Gateway): ApiGateway {
    ApiGateway(p.name, p.publicKey, p.endpoint, p.ip, p.routes, p.requiresPrivilegedAccess, p.healthy)
  }

  /** Converting back each status gateway, in order. */
  function ProtobufGatewaysToApiGateways(pbs: seq<Pb.Gateway>): (gws: seq<ApiGateway>)
    ensures |gws| == |pbs|
    ensures forall i :: 0 <= i < |pbs| ==> gws[i] == FromPb(pbs[i])
  {
    if |pbs| == 0 then [] else [FromPb(pbs[0])] + ProtobufGatewaysToApiGateways(pbs[1..])
  }

  /** The conversion loses nothing: converting back gives the control plane's list. */
  lemma ConversionRoundTrip(gws: seq<ApiGateway>)
    ensures ProtobufGatewaysToApiGateways(ApiGatewaysToProtobufGateways(gws)) == gws
  {
    var back := ProtobufGatewaysToApiGateways(ApiGatewaysToProtobufGateways(gws));
    assert forall i :: 0 <= i < |gws| ==> back[i] == gws[i];
  }

  /** Converting a concatenation converts each part. */
  lemma {:induction false} ConversionAppend(a: seq<ApiGateway>, b: seq<ApiGateway>)
    ensures ApiGatewaysToProtobufGateways(a + b)
         == ApiGatewaysToProtobufGateways(a) + ApiGatewaysToProtobufGateways(b)
  {
    if |a| == 0 {
      assert a + b == b;
    } else {
      assert (a + b)[0] == a[0];
      assert (a + b)[1..] == a[1..] + b;
      ConversionAppend(a[1..], b);
    }
  }

  // ---------------------------------------------------------------------
  // Health check

  /**
    One health-check pass: every gateway is probed at its address and is
    healthy exactly when the probe connected; a failed probe never stops the
    pass. `reachable` holds the addresses whose probe succeeded.
   */
  function HealthCheckPass(gws: seq<ApiGateway>, reachable: set<string>): (checked: seq<ApiGateway>)
    ensures |checked| == |gws|
    ensures forall i :: 0 <= i < |gws| ==> checked[i].healthy == (gws[i].ip in reachable)
    ensures forall i :: 0 <= i < |gws| ==> checked[i].(healthy := gws[i].healthy) == gws[i]
  {
    if |gws| == 0 then []
    else [gws[0].(healthy := gws[0].ip in reachable)] + HealthCheckPass(gws[1..], reachable)
  }

  /** The gateways whose probe failed, by position. */
  function Failing(gws: seq<ApiGateway>, reachable: set<string>): set<nat> {
    set i: nat | i < |gws| && gws[i].ip !in reachable
  }

  /** The gateways marked unhealthy, by position. */
  function UnhealthyAt(gws: seq<ApiGateway>): set<nat> {
    set i: nat | i < |gws| && !gws[i].healthy
  }

  /** After a pass exactly the gateways whose probe failed are unhealthy, whatever the pass found before. */
  lemma HealthCheckMarksFailures(gws: seq<ApiGateway>, reachable: set<string>)
    ensures UnhealthyAt(HealthCheckPass(gws, reachable)) == Failing(gws, reachable)
  {
  }

  /** Health reflects only the latest probe: a second pass overrides the first. */
  lemma HealthCheckLatestWins(gws: seq<ApiGateway>, earlier: set<string>, later: set<string>)
    ensures HealthCheckPass(HealthCheckPass(gws, earlier), later) == HealthCheckPass(gws, later)
  {
    var twice, once := HealthCheckPass(HealthCheckPass(gws, earlier), later), HealthCheckPass(gws, later);
    assert forall i :: 0 <= i < |gws| ==> twice[i] == once[i];
  }

  /** A pass with the same probe outcomes changes nothing the second time. */
  lemma HealthCheckIdempotent(gws: seq<ApiGateway>, reachable: set<string>)
    ensures HealthCheckPass(HealthCheckPass(gws, reachable), reachable) == HealthCheckPass(gws, reachable)
  {
    HealthCheckLatestWins(gws, reachable, reachable);
  }
}

=== FILE: iptables.dfy ===
/**
  The gateway agent's firewall reconciliation (cmd/gateway-agent/main.go),
  over an abstract rule store. A rule is identified by its table, its chain
  and its argument list; `AppendUnique` appends a rule unless the store
  already holds it. Which library calls fail is an input (`Faults`), since
  the kernel decides that.
 */
module Iptables {
  import opened Outcomes
  import opened GatewayAgent

  /** One rule: `iptables -t table -A chain spec...`. */
  datatype Rule = Rule(table: string, chain: string, spec: seq<string>)

  /** The state the agent changes: chain policies, existing chains and the rules in order. */
  datatype Firewall = Firewall(
    policies: map<(string, string), string>,
    chains: set<(string, string)>,
    rules: seq<Rule>)

  /**
    What the kernel refuses: changing the FORWARD policy, creating a chain
    for a reason other than its existence, or appending one of `rejected`.
   */
  datatype Faults = Faults(policyFails: bool, chainFails: bool, rejected: set<Rule>)

  /** The store after a call, and whether the call returned no error. */
  datatype Applied = Applied(fw: Firewall, ok: bool)

  /** The rule list holds no rule twice. */
  predicate NoDuplicates(rules: seq<Rule>) {
    forall i, j :: 0 <= i < j < |rules| ==> rules[i] != rules[j]
  }

  /** Policies and chains are the same in both stores. */
  predicate SameFrame(a: Firewall, b: Firewall) {
    a.policies == b.policies && a.chains == b.chains
  }

  /** Whether appending `r` can succeed: its chain exists and the kernel accepts it. */
  predicate Appendable(fw: Firewall, faults: Faults, r: Rule) {
    (r.table, r.chain) in fw.chains && r !in faults.rejected
  }

  /**
    `AppendUnique`: fails without a change when the rule cannot be appended,
    leaves the store alone when the rule is there already, and otherwise
    appends it at the end.
   */
  function AppendUnique(fw: Firewall, faults: Faults, r: Rule): (res: Applied)
    ensures res.ok <==> Appendable(fw, faults, r)
    ensures SameFrame(res.fw, fw)
    ensures fw.rules <= res.fw.rules
    ensures res.ok ==> r in res.fw.rules
    ensures forall q :: q in res.fw.rules <==> q in fw.rules || (res.ok && q == r)
    ensures |res.fw.rules| <= |fw.rules| + 1
    ensures NoDuplicates(fw.rules) ==> NoDuplicates(res.fw.rules)
  {
    if !Appendable(fw, faults, r) then Applied(fw, false)
    else if r in fw.rules then Applied(fw, true)
    else Applied(fw.(rules := fw.rules + [r]), true)
  }

  /** Appending a rule twice is the same as appending it once. */
  lemma AppendUniqueIdempotent(fw: Firewall, faults: Faults, r: Rule)
    ensures AppendUnique(AppendUnique(fw, faults, r).fw, faults, r) == AppendUnique(fw, faults, r)
  {
  }

  /** Appending a rule the store already holds changes nothing. */
  lemma AppendPresent(fw: Firewall, faults: Faults, r: Rule)
    requires r in fw.rules && Appendable(fw, faults, r)
    ensures AppendUnique(fw, faults, r) == Applied(fw, true)
  {
  }

  // ---------------------------------------------------------------------
  // forwardRoutes

  /** The source-NAT rule that lets traffic to `ip` leave by the default interface. */
  function SnatRule(cfg: Config, ip: string): Rule {
    Rule("nat", "POSTROUTING",
         ["-o", cfg.defaultInterface, "-p", "tcp", "-d", ip,
          "-j", "SNAT", "--to-source", cfg.defaultInterfaceIP])
  }

  /** The rule that sends new TCP connections from the tunnel to `ip` through `LOG_ACCEPT`. */
  function ForwardLogRule(cfg: Config, ip: string): Rule {
    Rule("filter", "FORWARD",
         ["--in-interface", "wg0", "--out-interface", cfg.defaultInterface,
          "--protocol", "tcp", "--syn", "--destination", ip,
          "--match", "conntrack", "--ctstate", "NEW", "--jump", "LOG_ACCEPT"])
  }

  /** Which of the two appends for a route failed. */
  datatype RouteError = SnatFailed(ip: string) | LogRuleFailed(ip: string)

  /** The store after `forwardRoutes`, and its error if any. */
  datatype Forwarded = Forwarded(fw: Firewall, err: Option<RouteError>)

  /** Both rules of every route can be appended. */
  predicate RoutesAppendable(fw: Firewall, faults: Faults, cfg: Config, routes: seq<string>) {
    forall i :: 0 <= i < |routes| ==>
      Appendable(fw, faults, SnatRule(cfg, routes[i])) && Appendable(fw, faults, ForwardLogRule(cfg, routes[i]))
  }

  /** Both rules of every route are in the store. */
  predicate RoutesForwarded(fw: Firewall, cfg: Config, routes: seq<string>) {
    forall i :: 0 <= i < |routes| ==>
      SnatRule(cfg, routes[i]) in fw.rules && ForwardLogRule(cfg, routes[i]) in fw.rules
  }

  /** A rule belongs to one of the routes. */
  predicate IsRouteRule(cfg: Config, routes: seq<string>, r: Rule) {
    exists i :: 0 <= i < |routes| && (r == SnatRule(cfg, routes[i]) || r == ForwardLogRule(cfg, routes[i]))
  }

  /**
    `forwardRoutes`: for each route in order, the SNAT rule and then the
    forwarding rule; the first failed append ends the walk with its error,
    keeping what the earlier appends added.
   */
  function ForwardRoutes(fw: Firewall, faults: Faults, cfg: Config, routes: seq<string>): (res: Forwarded)
    ensures SameFrame(res.fw, fw)
    ensures fw.rules <= res.fw.rules
    ensures NoDuplicates(fw.rules) ==> NoDuplicates(res.fw.rules)
    decreases |routes|
  {
    if |routes| == 0 then Forwarded(fw, None)
    else
      var ip := routes[0];
      var snat := AppendUnique(fw, faults, SnatRule(cfg, ip));
      if !snat.ok then Forwarded(snat.fw, Some(SnatFailed(ip)))
      else
        var log := AppendUnique(snat.fw, faults, ForwardLogRule(cfg, ip));
        if !log.ok then Forwarded(log.fw, Some(LogRuleFailed(ip)))
        else ForwardRoutes(log.fw, faults, cfg, routes[1..])
  }

  /** Appendability looks only at the chains and the faults, never at the rules. */
  lemma RoutesAppendableFrame(a: Firewall, b: Firewall, faults: Faults, cfg: Config, routes: seq<string>)
    requires SameFrame(a, b)
    ensures RoutesAppendable(a, faults, cfg, routes) <==> RoutesAppendable(b, faults, cfg, routes)
  {
  }

  /** A route list is appendable when its first route and the rest are. */
  lemma RoutesAppendableCons(fw: Firewall, faults: Faults, cfg: Config, routes: seq<string>)
    requires |routes| > 0
    ensures RoutesAppendable(fw, faults, cfg, routes) <==>
      && Appendable(fw, faults, SnatRule(cfg, routes[0]))
      && Appendable(fw, faults, ForwardLogRule(cfg, routes[0]))
      && RoutesAppendable(fw, faults, cfg, routes[1..])
  {
    assert forall i :: 1 <= i < |routes| ==> routes[i] == routes[1..][i - 1];
  }

  /** Whether every rule of the route list can be appended decides success. */
  lemma {:induction false} ForwardRoutesSucceeds(fw: Firewall, faults: Faults, cfg: Config, routes: seq<string>)
    ensures ForwardRoutes(fw, faults, cfg, routes).err == None <==> RoutesAppendable(fw, faults, cfg, routes)
    decreases |routes|
  {
    if |routes| > 0 {
      var ip := routes[0];
      RoutesAppendableCons(fw, faults, cfg, routes);
      var snat := AppendUnique(fw, faults, SnatRule(cfg, ip));
      if snat.ok {
        var log := AppendUnique(snat.fw, faults, ForwardLogRule(cfg, ip));
        if log.ok {
          ForwardRoutesSucceeds(log.fw, faults, cfg, routes[1..]);
          RoutesAppendableFrame(fw, log.fw, faults, cfg, routes[1..]);
        }
      }
    }
  }

  /** After a successful run both rules of every route are in the store. */
  lemma {:induction false} ForwardRoutesForwards(fw: Firewall, faults: Faults, cfg: Config, routes: seq<string>)
    requires ForwardRoutes(fw, faults, cfg, routes).err == None
    ensures RoutesForwarded(ForwardRoutes(fw, faults, cfg, routes).fw, cfg, routes)
    decreases |routes|
  {
    if |routes| > 0 {
      var ip := routes[0];
      var log := AppendUnique(AppendUnique(fw, faults, SnatRule(cfg, ip)).fw, faults, ForwardLogRule(cfg, ip));
      ForwardRoutesForwards(log.fw, faults, cfg, routes[1..]);
      var out := ForwardRoutes(fw, faults, cfg, routes).fw;
      assert log.fw.rules <= out.rules;
      assert forall i :: 1 <= i < |routes| ==> routes[i] == routes[1..][i - 1];
    }
  }

  /** A run adds no rule that does not belong to one of the routes. */
  lemma {:induction false} ForwardRoutesAddsOnlyRouteRules(fw: Firewall, faults: Faults, cfg: Config, routes: seq<string>)
    ensures forall q :: q in ForwardRoutes(fw, faults, cfg, routes).fw.rules ==>
      q in fw.rules || IsRouteRule(cfg, routes, q)
    decreases |routes|
  {
    if |routes| > 0 {
      var ip := routes[0];
      var snat := AppendUnique(fw, faults, SnatRule(cfg, ip));
      assert IsRouteRule(cfg, routes, SnatRule(cfg, ip));
      assert IsRouteRule(cfg, routes, ForwardLogRule(cfg, ip));
      if snat.ok {
        var log := AppendUnique(snat.fw, faults, ForwardLogRule(cfg, ip));
        if log.ok {
          ForwardRoutesAddsOnlyRouteRules(log.fw, faults, cfg, routes[1..]);
          forall q | IsRouteRule(cfg, routes[1..], q)
            ensures IsRouteRule(cfg, routes, q)
          {
            var i :| 0 <= i < |routes[1..]| && (q == SnatRule(cfg, routes[1..][i]) || q == ForwardLogRule(cfg, routes[1..][i]));
            assert routes[1..][i] == routes[i + 1];
          }
        }
      }
    }
  }

  /**
    The error names the route whose append failed: a failed SNAT rule leaves
    that route with nothing new, a failed forwarding rule comes after its
    SNAT rule went in.
   */
  lemma {:induction false} ForwardRoutesError(fw: Firewall, faults: Faults, cfg: Config, routes: seq<string>)
    ensures var res := ForwardRoutes(fw, faults, cfg, routes);
      res.err.Some? ==>
        && res.err.value.ip in routes
        && (res.err.value.SnatFailed? ==> !Appendable(fw, faults, SnatRule(cfg, res.err.value.ip)))
        && (res.err.value.LogRuleFailed? ==>
              && !Appendable(fw, faults, ForwardLogRule(cfg, res.err.value.ip))
              && SnatRule(cfg, res.err.value.ip) in res.fw.rules)
    decreases |routes|
  {
    if |routes| > 0 {
      var ip := routes[0];
      var snat := AppendUnique(fw, faults, SnatRule(cfg, ip));
      if snat.ok {
        var log := AppendUnique(snat.fw, faults, ForwardLogRule(cfg, ip));
        if log.ok {
          ForwardRoutesError(log.fw, faults, cfg, routes[1..]);
          assert forall x :: x in routes[1..] ==> x in routes;
        }
      }
    }
  }

  /**
    Running `forwardRoutes` again on its own result changes nothing and
    reports the same outcome: every rule the first run added is there, so
    the second run appends nothing, and it fails where the first failed.
   */
  lemma {:induction false} ForwardRoutesIdempotent(fw: Firewall, faults: Faults, cfg: Config, routes: seq<string>)
    ensures ForwardRoutes(ForwardRoutes(fw, faults, cfg, routes).fw, faults, cfg, routes)
         == ForwardRoutes(fw, faults, cfg, routes)
    decreases |routes|
  {
    if |routes| > 0 {
      var ip := routes[0];
      var snat := AppendUnique(fw, faults, SnatRule(cfg, ip));
      if snat.ok {
        var log := AppendUnique(snat.fw, faults, ForwardLogRule(cfg, ip));
        if log.ok {
          var r1 := ForwardRoutes(log.fw, faults, cfg, routes[1..]);
          ForwardRoutesIdempotent(log.fw, faults, cfg, routes[1..]);
          AppendPresent(r1.fw, faults, SnatRule(cfg, ip));
          AppendPresent(r1.fw, faults, ForwardLogRule(cfg, ip));
        } else {
          AppendPresent(log.fw, faults, SnatRule(cfg, ip));
        }
      }
    }
  }

  /**
    First error aborts: forwarding `a + b` is forwarding `a`, and only when
    that succeeded, forwarding `b` on the result.
   */
  lemma {:induction false} ForwardRoutesAppend(fw: Firewall, faults: Faults, cfg: Config, a: seq<string>, b: seq<string>)
    ensures ForwardRoutes(fw, faults, cfg, a + b)
         == (var ra := ForwardRoutes(fw, faults, cfg, a);
             if ra.err.Some? then ra else ForwardRoutes(ra.fw, faults, cfg, b))
    decreases |a|
  {
    if |a| == 0 {
      assert a + b == b;
    } else {
      assert (a + b)[0] == a[0];
      assert (a + b)[1..] == a[1..] + b;
      var snat := AppendUnique(fw, faults, SnatRule(cfg, a[0]));
      if snat.ok {
        var log := AppendUnique(snat.fw, faults, ForwardLogRule(cfg, a[0]));
        if log.ok {
          ForwardRoutesAppend(log.fw, faults, cfg, a[1..], b);
        }
      }
    }
  }

  // ---------------------------------------------------------------------
  // setupIptables

  /** Return traffic from the tunnel side out of the default interface. */
  function OutboundRule(cfg: Config): Rule {
    Rule("filter", "FORWARD",
         ["-i", "wg0", "-o", cfg.defaultInterface, "-m", "conntrack",
          "--ctstate", "ESTABLISHED,RELATED", "-j", "ACCEPT"])
  }

  /** Return traffic from the default interface into the tunnel. */
  function InboundRule(cfg: Config): Rule {
    Rule("filter", "FORWARD",
         ["-i", cfg.defaultInterface, "-o", "wg0", "-m", "conntrack",
          "--ctstate", "ESTABLISHED,RELATED", "-j", "ACCEPT"])
  }

  /** `LOG_ACCEPT` first logs the packet ... */
  const LogRule: Rule :=
    Rule("filter", "LOG_ACCEPT", ["-j", "LOG", "--log-prefix", "naisdevice-fwd: ", "--log-level", "6"])

  /** ... and then accepts it. */
  const AcceptRule: Rule := Rule("filter", "LOG_ACCEPT", ["-j", "ACCEPT"])

  /** The chain `setupIptables` creates. */
  const LogAcceptChain: (string, string) := ("filter", "LOG_ACCEPT")

  /** Which step of `setupIptables` failed. */
  datatype SetupError = PolicyFailed | OutboundFailed | InboundFailed | LogRuleFailedInChain | AcceptRuleFailed

  /** The store after `setupIptables`, and its error if any. */
  datatype SetUp = SetUp(fw: Firewall, err: Option<SetupError>)

  /** `NewChain`: creates the chain, or fails (and changes nothing) when it exists or the kernel refuses. */
  function NewChain(fw: Firewall, faults: Faults, chain: (string, string)): (res: Applied)
    ensures res.ok <==> chain !in fw.chains && !faults.chainFails
    ensures res.fw.chains == fw.chains + (if res.ok then {chain} else {})
    ensures res.fw.rules == fw.rules && res.fw.policies == fw.policies
  {
    if chain in fw.chains || faults.chainFails then Applied(fw, false)
    else Applied(fw.(chains := fw.chains + {chain}), true)
  }

  /**
    `setupIptables`: FORWARD policy DROP, the two return-traffic rules, the
    `LOG_ACCEPT` chain and its two rules. A failed chain creation is only
    logged; every other failure returns at once.
   */
  function SetupIptables(fw: Firewall, faults: Faults, cfg: Config): (res: SetUp)
    ensures res.err == None <==>
      && !faults.policyFails
      && Appendable(fw, faults, OutboundRule(cfg))
      && Appendable(fw, faults, InboundRule(cfg))
      && (LogAcceptChain in fw.chains || !faults.chainFails)
      && LogRule !in faults.rejected
      && AcceptRule !in faults.rejected
    ensures res.err == Some(PolicyFailed) <==> faults.policyFails
    ensures res.err == None ==>
      && ("filter", "FORWARD") in res.fw.policies
      && res.fw.policies[("filter", "FORWARD")] == "DROP"
      && LogAcceptChain in res.fw.chains
      && OutboundRule(cfg) in res.fw.rules && InboundRule(cfg) in res.fw.rules
      && LogRule in res.fw.rules && AcceptRule in res.fw.rules
    ensures fw.rules <= res.fw.rules
    ensures NoDuplicates(fw.rules) ==> NoDuplicates(res.fw.rules)
  {
    if faults.policyFails then SetUp(fw, Some(PolicyFailed))
    else SetupRules(fw.(policies := fw.policies[("filter", "FORWARD") := "DROP"]), faults, cfg)
  }

  /**
    A gateway restart runs `setupIptables` again on the rules the last run
    left: the second run changes nothing and ends the same way.
   */
  lemma SetupIptablesIdempotent(fw: Firewall, faults: Faults, cfg: Config)
    ensures SetupIptables(SetupIptables(fw, faults, cfg).fw, faults, cfg) == SetupIptables(fw, faults, cfg)
  {
    if !faults.policyFails {
      var dropped := fw.(policies := fw.policies[("filter", "FORWARD") := "DROP"]);
      var first := SetupRules(dropped, faults, cfg);
      assert first.fw.(policies := first.fw.policies[("filter", "FORWARD") := "DROP"]) == first.fw;
      SetupRulesIdempotent(dropped, faults, cfg);
    }
  }

  /**
    The rule steps of `setupIptables`, after the policy change: the two
    return-traffic rules, then the `LOG_ACCEPT` chain (its failure only
    logged) and its two rules.
   */
  function SetupRules(dropped: Firewall, faults: Faults, cfg: Config): (res: SetUp)
    ensures res.fw.policies == dropped.policies
  {
    var outbound := AppendUnique(dropped, faults, OutboundRule(cfg));
    if !outbound.ok then SetUp(outbound.fw, Some(OutboundFailed))
    else
      var inbound := AppendUnique(outbound.fw, faults, InboundRule(cfg));
      if !inbound.ok then SetUp(inbound.fw, Some(InboundFailed))
      else
        var chained := NewChain(inbound.fw, faults, LogAcceptChain);
        var logged := AppendUnique(chained.fw, faults, LogRule);
        if !logged.ok then SetUp(logged.fw, Some(LogRuleFailedInChain))
        else
          var accepted := AppendUnique(logged.fw, faults, AcceptRule);
          if !accepted.ok then SetUp(accepted.fw, Some(AcceptRuleFailed))
          else SetUp(accepted.fw, None)
  }

  /** Running the rule steps again on their own result changes nothing. */
  lemma SetupRulesIdempotent(dropped: Firewall, faults: Faults, cfg: Config)
    ensures SetupRules(SetupRules(dropped, faults, cfg).fw, faults, cfg) == SetupRules(dropped, faults, cfg)
  {
    var first := SetupRules(dropped, faults, cfg);
    var outbound := AppendUnique(dropped, faults, OutboundRule(cfg));
    if outbound.ok {
      AppendPresent(first.fw, faults, OutboundRule(cfg));
      var inbound := AppendUnique(outbound.fw, faults, InboundRule(cfg));
      if inbound.ok {
        AppendPresent(first.fw, faults, InboundRule(cfg));
        var chained := NewChain(inbound.fw, faults, LogAcceptChain);
        var rechained := NewChain(first.fw, faults, LogAcceptChain);
        assert rechained.fw == first.fw;
        var logged := AppendUnique(chained.fw, faults, LogRule);
        if logged.ok {
          AppendPresent(first.fw, faults, LogRule);
          var accepted := AppendUnique(logged.fw, faults, AcceptRule);
          if accepted.ok {
            AppendPresent(first.fw, faults, AcceptRule);
          }
        }
      }
    }
  }
}

=== FILE: outcomes.dfy ===
/** Optional values, used wherever the Go code has a nil pointer or an error return. */
module Outcomes {

  /** `None` stands for a nil pointer, or for a call that returned an error. */
  datatype Option<+T> = None | Some(value: T) {

    /** The wrapped value, or `default` when there is none. */
    function GetOr(default: T): T {
      match this
      case Some(v) => v
      case None => default
    }
  }
}

=== FILE: pb.dfy ===
/**
  The status types shared by the device agent and its front-ends
  (pkg/pb), and the human-readable connection state
  (pkg/pb/connectionstate.go).
 */
module Pb {
  import opened Outcomes

  /** The connection states, in the order of the protocol's enum. */
  datatype AgentState =
    | Disconnected
    | Bootstrapping
    | Authenticating
    | AuthenticateBackoff
    | SyncConfig
    | HealthCheck
    | Connected
    | Unhealthy
    | Disconnecting
    | Quitting

  /** A gateway as the agent reports it and pushes it to the helper. */
  datatype Gateway = Gateway(
    name: string,
    healthy: bool,
    publicKey: string,
    endpoint: string,
    ip: string,
    routes: seq<string>,
    requiresPrivilegedAccess: bool,
    accessGroupIds: seq<string>)

  /**
    The observable status. `connectedSince` is a timestamp in whole seconds
    since the Unix epoch, None while unset.
   */
  datatype AgentStatus = AgentStatus(
    connectionState: AgentState,
    connectedSince: Option<int>,
    gateways: seq<Gateway>,
    newVersionAvailable: bool)

  /** The status before anything happened: every field at its zero value. */
  const InitialStatus: AgentStatus := AgentStatus(Disconnected, None, [], false)

  /** The enum value's name, what the protocol's generated `String()` returns. */
  function EnumName(s: AgentState): string {
    match s
    case Disconnected => "Disconnected"
    case Bootstrapping => "Bootstrapping"
    case Authenticating => "Authenticating"
    case AuthenticateBackoff => "AuthenticateBackoff"
    case SyncConfig => "SyncConfig"
    case HealthCheck => "HealthCheck"
    case Connected => "Connected"
    case Unhealthy => "Unhealthy"
    case Disconnecting => "Disconnecting"
    case Quitting => "Quitting"
  }

  /** Reading an enum name back. */
  function StateNamed(name: string): Option<AgentState> {
    if name == "Disconnected" then Some(Disconnected)
    else if name == "Bootstrapping" then Some(Bootstrapping)
    else if name == "Authenticating" then Some(Authenticating)
    else if name == "AuthenticateBackoff" then Some(AuthenticateBackoff)
    else if name == "SyncConfig" then Some(SyncConfig)
    else if name == "HealthCheck" then Some(HealthCheck)
    else if name == "Connected" then Some(Connected)
    else if name == "Unhealthy" then Some(Unhealthy)
    else if name == "Disconnecting" then Some(Disconnecting)
    else if name == "Quitting" then Some(Quitting)
    else None
  }

  /** Every state is named, and no two states share a name. */
  lemma EnumNameRoundTrip(s: AgentState)
    ensures StateNamed(EnumName(s)) == Some(s)
  {
  }

  // ---------------------------------------------------------------------
  // The `15:04:05` time layout

  const SecondsPerDay: int := 86400

  /** The decimal digit for `d`. */
  function Digit(d: nat): (c: char)
    requires d < 10
    ensures '0' <= c <= '9'
  {
    ('0' as int + d) as char
  }

  /** Two decimal digits, zero-padded. */
  function Pad2(n: nat): (s: string)
    requires n < 100
    ensures |s| == 2 && '0' <= s[0] <= '9' && '0' <= s[1] <= '9'
  {
    [Digit(n / 10), Digit(n % 10)]
  }

  /** The positions of the digits in `HH:MM:SS`. */
  predicate ClockShaped(s: string) {
    && |s| == 8 && s[2] == ':' && s[5] == ':'
    && IsDigit(s[0]) && IsDigit(s[1]) && IsDigit(s[3]) && IsDigit(s[4]) && IsDigit(s[6]) && IsDigit(s[7])
  }

  predicate IsDigit(c: char) {
    '0' <= c <= '9'
  }

  /**
    The time of day of a Unix timestamp in UTC as hours, minutes and
    seconds, each in two digits. Timestamps before the epoch count back from
    midnight, so the day's second is the Euclidean remainder.
   */
  function Clock(t: int): (s: string)
    ensures ClockShaped(s)
    ensures Digits2(s[0], s[1]) < 24 && Digits2(s[3], s[4]) < 60 && Digits2(s[6], s[7]) < 60
  {
    var day := t % SecondsPerDay;
    var h, m, sec := Pad2(day / 3600), Pad2(day % 3600 / 60), Pad2(day % 60);
    Pad2Value(day / 3600);
    Pad2Value(day % 3600 / 60);
    Pad2Value(day % 60);
    var s := h + ":" + m + ":" + sec;
    assert s[0] == h[0] && s[1] == h[1] && s[3] == m[0] && s[4] == m[1] && s[6] == sec[0] && s[7] == sec[1];
    s
  }

  /** The value of two decimal digits. */
  function Digits2(a: char, b: char): int {
    (a as int - '0' as int) * 10 + (b as int - '0' as int)
  }

  /**
    Reading `HH:MM:SS` back as the second of the day: two digits per field,
    hours below 24 and minutes and seconds below 60, or nothing.
   */
  function ClockSeconds(s: string): (r: Option<int>)
    ensures r.Some? ==> 0 <= r.value < SecondsPerDay
    ensures r.Some? <==> ClockShaped(s) && Digits2(s[0], s[1]) < 24 && Digits2(s[3], s[4]) < 60 && Digits2(s[6], s[7]) < 60
  {
    if ClockShaped(s) then
      var h, m, sec := Digits2(s[0], s[1]), Digits2(s[3], s[4]), Digits2(s[6], s[7]);
      if h < 24 && m < 60 && sec < 60 then Some(h * 3600 + m * 60 + sec) else None
    else None
  }

  lemma Pad2Value(n: nat)
    requires n < 100
    ensures Digits2(Pad2(n)[0], Pad2(n)[1]) == n
  {
  }

  /** The clock text determines the second of the day, and nothing more. */
  lemma ClockRoundTrip(t: int)
    ensures ClockSeconds(Clock(t)) == Some(t % SecondsPerDay)
  {
    var day := t % SecondsPerDay;
    var h, m, sec := Pad2(day / 3600), Pad2(day % 3600 / 60), Pad2(day % 60);
    var s := Clock(t);
    assert s == h + ":" + m + ":" + sec;
    assert s[0] == h[0] && s[1] == h[1];
    assert s[3] == m[0] && s[4] == m[1];
    assert s[6] == sec[0] && s[7] == sec[1];
    Pad2Value(day / 3600);
    Pad2Value(day % 3600 / 60);
    Pad2Value(day % 60);
  }

  // ---------------------------------------------------------------------
  // ConnectionStateString

  const ConnectedPrefix: string := "Connected since "

  /** The text for every state but `Connected`, whose text carries the time. */
  function StateText(s: AgentState): string {
    match s
    case Bootstrapping => "Bootstrapping device..."
    case Unhealthy => "Device is unhealthy; no access to resources"
    case HealthCheck => "Checking gateway connectivity..."
    case SyncConfig => "Retrieving gateway configuration..."
    case Disconnecting => "Disconnecting..."
    case Authenticating => "Authenticating..."
    case AuthenticateBackoff => "Authentication failed; waiting to retry..."
    case Connected => ConnectedPrefix
    case _ => EnumName(s)
  }

  /**
    The human-friendly connection state. An unset connected-since time reads
    as the epoch, as the zero timestamp does.
   */
  function ConnectionStateString(status: AgentStatus): (text: string)
    ensures status.connectionState == Connected ==>
      && |text| == |ConnectedPrefix| + 8
      && text[..|ConnectedPrefix|] == ConnectedPrefix
      && ClockSeconds(text[|ConnectedPrefix|..]) == Some(status.connectedSince.GetOr(0) % SecondsPerDay)
    ensures status.connectionState != Connected ==> text == StateText(status.connectionState)
  {
    if status.connectionState == Connected then
      var text := ConnectedPrefix + Clock(status.connectedSince.GetOr(0));
      assert text[|ConnectedPrefix|..] == Clock(status.connectedSince.GetOr(0));
      ClockRoundTrip(status.connectedSince.GetOr(0));
      text
    else StateText(status.connectionState)
  }

  /** Which state a connection-state text was made from. */
  function StateOfText(text: string): Option<AgentState> {
    if |text| == |ConnectedPrefix| + 8 && text[..|ConnectedPrefix|] == ConnectedPrefix then Some(Connected)
    else if text == "Bootstrapping device..." then Some(Bootstrapping)
    else if text == "Device is unhealthy; no access to resources" then Some(Unhealthy)
    else if text == "Checking gateway connectivity..." then Some(HealthCheck)
    else if text == "Retrieving gateway configuration..." then Some(SyncConfig)
    else if text == "Disconnecting..." then Some(Disconnecting)
    else if text == "Authenticating..." then Some(Authenticating)
    else if text == "Authentication failed; waiting to retry..." then Some(AuthenticateBackoff)
    else StateNamed(text)
  }

  // One lemma per state keeps each comparison of literal texts small.

  lemma BootstrappingTextRoundTrip()
    ensures StateOfText(StateText(Bootstrapping)) == Some(Bootstrapping)
  {
  }

  lemma UnhealthyTextRoundTrip()
    ensures StateOfText(StateText(Unhealthy)) == Some(Unhealthy)
  {
  }

  lemma HealthCheckTextRoundTrip()
    ensures StateOfText(StateText(HealthCheck)) == Some(HealthCheck)
  {
  }

  lemma SyncConfigTextRoundTrip()
    ensures StateOfText(StateText(SyncConfig)) == Some(SyncConfig)
  {
  }

  lemma DisconnectingTextRoundTrip()
    ensures StateOfText(StateText(Disconnecting)) == Some(Disconnecting)
  {
  }

  lemma AuthenticatingTextRoundTrip()
    ensures StateOfText(StateText(Authenticating)) == Some(Authenticating)
  {
  }

  lemma AuthenticateBackoffTextRoundTrip()
    ensures StateOfText(StateText(AuthenticateBackoff)) == Some(AuthenticateBackoff)
  {
  }

  /** The states that fall back to their enum name read back. */
  lemma NamedTextRoundTrip(s: AgentState)
    requires s == Disconnected || s == Quitting
    ensures StateOfText(StateText(s)) == Some(s)
  {
    EnumNameRoundTrip(s);
  }

  /**
    The text tells the state: every state has a text, and two statuses in
    different states never read the same.
   */
  lemma ConnectionStateRoundTrip(status: AgentStatus)
    ensures StateOfText(ConnectionStateString(status)) == Some(status.connectionState)
  {
    match status.connectionState
    case Bootstrapping => BootstrappingTextRoundTrip();
    case Unhealthy => UnhealthyTextRoundTrip();
    case HealthCheck => HealthCheckTextRoundTrip();
    case SyncConfig => SyncConfigTextRoundTrip();
    case Disconnecting => DisconnectingTextRoundTrip();
    case Authenticating => AuthenticatingTextRoundTrip();
    case AuthenticateBackoff => AuthenticateBackoffTextRoundTrip();
    case Disconnected => NamedTextRoundTrip(Disconnected);
    case Quitting => NamedTextRoundTrip(Quitting);
    case Connected =>
  }

  /** Two statuses with the same text are in the same state. */
  lemma ConnectionStateInjective(a: AgentStatus, b: AgentStatus)
    requires ConnectionStateString(a) == ConnectionStateString(b)
    ensures a.connectionState == b.connectionState
  {
    ConnectionStateRoundTrip(a);
    ConnectionStateRoundTrip(b);
  }

  /** Two connected statuses read the same exactly when they connected at the same second of the day. */
  lemma ConnectedTextsAgree(a: AgentStatus, b: AgentStatus)
    requires a.connectionState == Connected && b.connectionState == Connected
    ensures ConnectionStateString(a) == ConnectionStateString(b)
        <==> a.connectedSince.GetOr(0) % SecondsPerDay == b.connectedSince.GetOr(0) % SecondsPerDay
  {
    var ta, tb := ConnectionStateString(a), ConnectionStateString(b);
    var p := |ConnectedPrefix|;
    if ta == tb {
      assert ta[p..] == tb[p..];
    } else {
      var ca, cb := Clock(a.connectedSince.GetOr(0)), Clock(b.connectedSince.GetOr(0));
      assert ta == ConnectedPrefix + ca && tb == ConnectedPrefix + cb;
      assert ca != cb;
      ClockDigits(a.connectedSince.GetOr(0), b.connectedSince.GetOr(0));
    }
  }

  /** Two digit pairs with the same value are the same characters. */
  lemma Digits2Injective(a: char, b: char, c: char, d: char)
    requires IsDigit(a) && IsDigit(b) && IsDigit(c) && IsDigit(d)
    requires Digits2(a, b) == Digits2(c, d)
    ensures a == c && b == d
  {
  }

  /** A field split of a second of the day is unique. */
  lemma FieldsUnique(h: int, m: int, s: int, h': int, m': int, s': int)
    requires 0 <= m < 60 && 0 <= s < 60 && 0 <= m' < 60 && 0 <= s' < 60
    requires h * 3600 + m * 60 + s == h' * 3600 + m' * 60 + s'
    ensures h == h' && m == m' && s == s'
  {
    var x := m * 60 + s;
    var y := m' * 60 + s';
    assert 0 <= x < 3600 && 0 <= y < 3600;
    assert (h - h') * 3600 == y - x;
    assert (m - m') * 60 == s' - s;
  }

  /** The reader accepts one text per second of the day: the layout is pinned. */
  lemma ClockSecondsInjective(a: string, b: string)
    requires ClockSeconds(a).Some? && ClockSeconds(a) == ClockSeconds(b)
    ensures a == b
  {
    FieldsUnique(Digits2(a[0], a[1]), Digits2(a[3], a[4]), Digits2(a[6], a[7]),
                 Digits2(b[0], b[1]), Digits2(b[3], b[4]), Digits2(b[6], b[7]));
    Digits2Injective(a[0], a[1], b[0], b[1]);
    Digits2Injective(a[3], a[4], b[3], b[4]);
    Digits2Injective(a[6], a[7], b[6], b[7]);
    assert forall i :: 0 <= i < 8 ==> a[i] == b[i];
  }

  /** Clock texts that differ come from different seconds of the day. */
  lemma ClockDigits(x: int, y: int)
    requires Clock(x) != Clock(y)
    ensures x % SecondsPerDay != y % SecondsPerDay
  {
  }
}

=== FILE: wgconf.dfy ===
/**
  The line structure of a WireGuard configuration file (the `wg setconf` /
  `wg-quick` format): `[Section]` headers, optionally followed by a `# comment`,
  `Key = Value` pairs and blank lines, each line ended by a newline.

  Both agents render such files from string templates. This module gives the
  format a structured reading (`Line`), a renderer and a parser, and proves
  that parsing undoes rendering for every well-formed line list. The template
  lemmas in the agent modules go through it.
 */
module WgConf {
  import opened Outcomes

  datatype Line =
    | Section(name: string, comment: string)  // "[name]" or "[name] # comment"
    | Pair(key: string, value: string)        // "key = value"
    | Blank                                   // ""

  /** A line renders back to itself after parsing when no part of it can be
      mistaken for the syntax around it. */
  predicate WellFormedLine(l: Line) {
    match l
    case Section(n, c) => '\n' !in n && ']' !in n && '\n' !in c
    case Pair(k, v) => '\n' !in k && ' ' !in k && (|k| > 0 ==> k[0] != '[') && '\n' !in v
    case Blank => true
  }

  predicate WellFormed(ls: seq<Line>) {
    forall i :: 0 <= i < |ls| ==> WellFormedLine(ls[i])
  }

  /** The text of one line, without its newline. */
  function LineText(l: Line): string {
    match l
    case Section(n, c) => "[" + n + "]" + (if c == "" then "" else " # " + c)
    case Pair(k, v) => k + " = " + v
    case Blank => ""
  }

  /** Text made of the given lines, each followed by a newline: how a
      multi-line template reads. */
  function Join(ts: seq<string>): string {
    if |ts| == 0 then "" else ts[0] + "\n" + Join(ts[1..])
  }

  /** The texts of the lines, in order. */
  function Texts(ls: seq<Line>): (ts: seq<string>)
    ensures |ts| == |ls|
    ensures forall i :: 0 <= i < |ls| ==> ts[i] == LineText(ls[i])
  {
    if |ls| == 0 then [] else [LineText(ls[0])] + Texts(ls[1..])
  }

  /** The file text of a line list. */
  function Render(ls: seq<Line>): string {
    Join(Texts(ls))
  }

  /** The position of the first `c` in `s`, or `|s|` when there is none. */
  function IndexOf(s: string, c: char): (i: nat)
    ensures i <= |s|
    ensures i < |s| ==> s[i] == c
    ensures c !in s[..i]
    ensures i == |s| <==> c !in s
  {
    if |s| == 0 then 0
    else if s[0] == c then 0
    else
      var j := IndexOf(s[1..], c);
      assert s[1..][..j] == s[1..j + 1];
      assert s[..j + 1] == [s[0]] + s[1..j + 1];
      j + 1
  }

  /** Reads one line of text back into its structure. */
  function ParseLine(t: string): Option<Line> {
    if t == "" then Some(Blank)
    else if t[0] == '[' then
      var j := IndexOf(t, ']');
      if j == |t| then None
      else
        var rest := t[j + 1..];
        if rest == "" then Some(Section(t[1..j], ""))
        else if |rest| > 3 && rest[..3] == " # " then Some(Section(t[1..j], rest[3..]))
        else None
    else
      var j := IndexOf(t, ' ');
      var rest := t[j..];
      if |rest| >= 3 && rest[..3] == " = " then Some(Pair(t[..j], rest[3..]))
      else None
  }

  /** Cuts newline-terminated text into its lines; `None` when the text does
      not end with a newline. */
  function SplitLines(s: string): Option<seq<string>>
    decreases |s|
  {
    if s == "" then Some([])
    else
      var i := IndexOf(s, '\n');
      if i == |s| then None
      else
        match SplitLines(s[i + 1..])
        case None => None
        case Some(rest) => Some([s[..i]] + rest)
  }

  function ParseLines(ts: seq<string>): Option<seq<Line>> {
    if |ts| == 0 then Some([])
    else
      match ParseLine(ts[0])
      case None => None
      case Some(l) =>
        match ParseLines(ts[1..])
        case None => None
        case Some(ls) => Some([l] + ls)
  }

  /** Reads a whole configuration file. */
  function Parse(s: string): Option<seq<Line>> {
    match SplitLines(s)
    case None => None
    case Some(ts) => ParseLines(ts)
  }

  /** Number of `[name]` headers, whatever their comment. */
  function CountSections(ls: seq<Line>, name: string): nat {
    if |ls| == 0 then 0
    else (if ls[0].Section? && ls[0].name == name then 1 else 0) + CountSections(ls[1..], name)
  }

  /** Whether some pair in the file has the given key. */
  predicate HasKey(ls: seq<Line>, key: string) {
    exists i :: 0 <= i < |ls| && ls[i].Pair? && ls[i].key == key
  }

  // ---------------------------------------------------------------------
  // Lemmas

  lemma LineTextHasNoNewline(l: Line)
    requires WellFormedLine(l)
    ensures '\n' !in LineText(l)
  {
    match l
    case Section(n, c) =>
      var t := LineText(l);
      if c == "" {
        assert t == "[" + n + "]";
      } else {
        assert t == "[" + n + "]" + " # " + c;
      }
    case Pair(k, v) =>
      assert LineText(l) == k + " = " + v;
    case Blank =>
  }

  lemma JoinCons(t: string, ts: seq<string>)
    ensures Join([t] + ts) == t + "\n" + Join(ts)
  {
    assert ([t] + ts)[1..] == ts;
  }

  lemma {:induction false} JoinAppend(a: seq<string>, b: seq<string>)
    ensures Join(a + b) == Join(a) + Join(b)
  {
    if |a| == 0 {
      assert a + b == b;
    } else {
      assert (a + b)[0] == a[0];
      assert (a + b)[1..] == a[1..] + b;
      JoinAppend(a[1..], b);
    }
  }

  lemma {:induction false} TextsAppend(a: seq<Line>, b: seq<Line>)
    ensures Texts(a + b) == Texts(a) + Texts(b)
  {
    if |a| == 0 {
      assert a + b == b;
    } else {
      assert (a + b)[0] == a[0];
      assert (a + b)[1..] == a[1..] + b;
      TextsAppend(a[1..], b);
    }
  }

  lemma WellFormedCons(l: Line, rest: seq<Line>)
    requires WellFormedLine(l) && WellFormed(rest)
    ensures WellFormed([l] + rest)
  {
    forall i | 0 <= i < |[l] + rest| ensures WellFormedLine(([l] + rest)[i]) {
      if i > 0 {
        assert ([l] + rest)[i] == rest[i - 1];
      }
    }
  }

  lemma CountSectionsCons(l: Line, rest: seq<Line>, name: string)
    ensures CountSections([l] + rest, name)
         == (if l.Section? && l.name == name then 1 else 0) + CountSections(rest, name)
  {
    assert ([l] + rest)[1..] == rest;
  }

  /** The first occurrence of `c` in `a + [c] + b` is right after `a` when `a`
      holds no `c`. */
  lemma {:induction false} IndexOfAfter(a: string, c: char, b: string)
    requires c !in a
    ensures IndexOf(a + [c] + b, c) == |a|
  {
    var s := a + [c] + b;
    if |a| > 0 {
      assert s[0] == a[0];
      assert s[1..] == a[1..] + [c] + b;
      IndexOfAfter(a[1..], c, b);
    }
  }

  lemma ParseSectionText(n: string, c: string)
    requires WellFormedLine(Section(n, c))
    ensures ParseLine(LineText(Section(n, c))) == Some(Section(n, c))
  {
    var t := LineText(Section(n, c));
    var tail := if c == "" then "" else " # " + c;
    assert t == "[" + n + [']'] + tail;
    assert ']' !in "[" + n;
    IndexOfAfter("[" + n, ']', tail);
    assert t[1..|n| + 1] == n;
    assert t[|n| + 2..] == tail;
    if c != "" {
      assert tail[..3] == " # ";
      assert tail[3..] == c;
    }
  }

  /** The pair branch of `ParseLine`: text up to the first space is the key, the rest after ` = ` the value. */
  lemma ParsePairShape(t: string, j: nat)
    requires t != "" && t[0] != '[' && IndexOf(t, ' ') == j
    requires |t[j..]| >= 3 && t[j..][..3] == " = "
    ensures ParseLine(t) == Some(Pair(t[..j], t[j..][3..]))
  {
  }

  lemma ParsePairText(k: string, v: string)
    requires WellFormedLine(Pair(k, v))
    ensures ParseLine(LineText(Pair(k, v))) == Some(Pair(k, v))
  {
    var t := LineText(Pair(k, v));
    var rest := " = " + v;
    assert t == k + [' '] + ("= " + v);
    assert t[0] != '[' by {
      if |k| > 0 {
        assert t[0] == k[0];
      } else {
        assert t[0] == ' ';
      }
    }
    IndexOfAfter(k, ' ', "= " + v);
    assert t[..|k|] == k;
    assert t[|k|..] == rest;
    assert rest[..3] == " = " && rest[3..] == v;
    ParsePairShape(t, |k|);
  }

  /** Parsing a rendered line gives the line back. */
  lemma ParseLineText(l: Line)
    requires WellFormedLine(l)
    ensures ParseLine(LineText(l)) == Some(l)
  {
    match l
    case Blank =>
    case Section(n, c) => ParseSectionText(n, c);
    case Pair(k, v) => ParsePairText(k, v);
  }

  lemma WellFormedTail(ls: seq<Line>)
    requires |ls| > 0 && WellFormed(ls)
    ensures WellFormedLine(ls[0]) && WellFormed(ls[1..])
  {
    forall i | 0 <= i < |ls[1..]| ensures WellFormedLine(ls[1..][i]) {
      assert ls[1..][i] == ls[i + 1];
    }
  }

  /** Splitting at the first newline peels off one line. */
  lemma SplitCons(t: string, rest: string)
    requires '\n' !in t
    ensures SplitLines(t + "\n" + rest) ==
      match SplitLines(rest)
      case None => None
      case Some(ts) => Some([t] + ts)
  {
    var s := t + "\n" + rest;
    IndexOfAfter(t, '\n', rest);
    assert s[..|t|] == t;
    assert s[|t| + 1..] == rest;
  }

  /** Splitting joined lines recovers them, as long as none holds a newline. */
  lemma {:induction false} SplitJoin(ts: seq<string>)
    requires forall i :: 0 <= i < |ts| ==> '\n' !in ts[i]
    ensures SplitLines(Join(ts)) == Some(ts)
  {
    if |ts| > 0 {
      SplitJoin(ts[1..]);
      SplitCons(ts[0], Join(ts[1..]));
      assert [ts[0]] + ts[1..] == ts;
    }
  }

  /** Splitting rendered text recovers exactly the rendered lines. */
  lemma SplitRender(ls: seq<Line>)
    requires WellFormed(ls)
    ensures SplitLines(Render(ls)) == Some(Texts(ls))
  {
    forall i | 0 <= i < |ls| ensures '\n' !in Texts(ls)[i] {
      LineTextHasNoNewline(ls[i]);
    }
    SplitJoin(Texts(ls));
  }

  lemma {:induction false} ParseLinesTexts(ls: seq<Line>)
    requires WellFormed(ls)
    ensures ParseLines(Texts(ls)) == Some(ls)
  {
    if |ls| > 0 {
      WellFormedTail(ls);
      ParseLineText(ls[0]);
      ParseLinesTexts(ls[1..]);
      assert Texts(ls)[1..] == Texts(ls[1..]);
      assert [ls[0]] + ls[1..] == ls;
    }
  }

  /** The format's round trip: parsing the rendering of a well-formed line list
      yields that list. */
  lemma ParseRender(ls: seq<Line>)
    requires WellFormed(ls)
    ensures Parse(Render(ls)) == Some(ls)
  {
    SplitRender(ls);
    ParseLinesTexts(ls);
  }

  /** Rendering distributes over concatenation of line lists. */
  lemma RenderAppend(a: seq<Line>, b: seq<Line>)
    ensures Render(a + b) == Render(a) + Render(b)
  {
    TextsAppend(a, b);
    JoinAppend(Texts(a), Texts(b));
  }

  lemma WellFormedAppend(a: seq<Line>, b: seq<Line>)
    requires WellFormed(a) && WellFormed(b)
    ensures WellFormed(a + b)
  {
    forall i | 0 <= i < |a + b| ensures WellFormedLine((a + b)[i]) {
      if i < |a| {
        assert (a + b)[i] == a[i];
      } else {
        assert (a + b)[i] == b[i - |a|];
      }
    }
  }

  /** Counting section headers distributes over concatenation. */
  lemma {:induction false} CountSectionsAppend(a: seq<Line>, b: seq<Line>, name: string)
    ensures CountSections(a + b, name) == CountSections(a, name) + CountSections(b, name)
  {
    if |a| > 0 {
      assert (a + b)[0] == a[0];
      assert (a + b)[1..] == a[1..] + b;
      CountSectionsAppend(a[1..], b, name);
    } else {
      assert a + b == b;
    }
  }

  /** A file with no `[name]` header counts zero of them. */
  lemma {:induction false} CountSectionsNone(ls: seq<Line>, name: string)
    requires forall i :: 0 <= i < |ls| ==> !(ls[i].Section? && ls[i].name == name)
    ensures CountSections(ls, name) == 0
  {
    if |ls| > 0 {
      assert !(ls[0].Section? && ls[0].name == name);
      CountSectionsNone(ls[1..], name);
    }
  }

  /** A file whose only `[name]` header is its first line counts one. */
  lemma CountSectionsHeadOnly(ls: seq<Line>, name: string)
    requires |ls| > 0 && ls[0].Section? && ls[0].name == name
    requires forall i :: 1 <= i < |ls| ==> !(ls[i].Section? && ls[i].name == name)
    ensures CountSections(ls, name) == 1
  {
    CountSectionsNone(ls[1..], name);
  }

  /** How a pair line reads. */
  lemma PairText(k: string, v: string)
    ensures LineText(Pair(k, v)) == k + " = " + v
  {
  }

  /** A pair keyed by one of the five keys the agents write is well formed
      when its value has no line break. */
  lemma KeyedPairWellFormed(k: string, v: string)
    requires k in {"PrivateKey", "ListenPort", "PublicKey", "AllowedIPs", "Endpoint"}
    requires '\n' !in v
    ensures WellFormedLine(Pair(k, v))
  {
    if k == "PrivateKey" {
      assert '\n' !in k && ' ' !in k && k[0] != '[';
    } else if k == "ListenPort" {
      assert '\n' !in k && ' ' !in k && k[0] != '[';
    } else if k == "PublicKey" {
      assert '\n' !in k && ' ' !in k && k[0] != '[';
    } else if k == "AllowedIPs" {
      assert '\n' !in k && ' ' !in k && k[0] != '[';
    } else {
      assert '\n' !in k && ' ' !in k && k[0] != '[';
    }
  }

  /** Appending a `/32` prefix length keeps an address on one line. */
  lemma CidrHasNoNewline(ip: string)
    requires '\n' !in ip
    ensures '\n' !in ip + "/32"
  {
  }
}
